=== FILE: README.md ===
# bookService in Dafny

A model of the core of the bookService gRPC server, with proofs about it. The server is a small catalogue of books. Administrators add, update and delete books; anyone may read and list them; users hold books through a users-to-books association.

The model covers four layers:

- **Access guard** (`Auth`, auth.dfy). The unary interceptor decides from the full method name and the incoming metadata whether a call reaches its handler. Calls are public, admin-only or merely authenticated. The guard answers Unauthenticated or PermissionDenied otherwise, and passes the first role on under `user_role`.
- **Transport** (`Transport`, server.dfy). Each RPC handler of `serverAPI` validates its required fields with InvalidArgument and builds the list filter. An empty string or a zero year means "absent". Every service error becomes Internal, and books are copied one-for-one into response messages. `ServerApi` holds the orchestrator object and forwards to it.
- **Orchestrator** (`CacheAside`, cache_aside.dfy, and `Orchestrator`, book_service.dfy). This is a cache-aside layer.
  - `GetBook` reads the cache under `book:<id>`. On a miss or a cache error it reads the store and writes the row back on a best-effort basis.
  - `UpdateBook` writes the store, then deletes the cache entry on a best-effort basis.
  - Every other operation goes straight to the store.
  - `CacheAside` states each operation as a function from the combined state (store tables, cache entries) to a result and a new state. The lemmas about several calls live there: read-through, invalidation, stale reads after delete, the round trip, and isolation from cache faults.
  - The class `Orchestrator.BookService` has the store's tables and the cache's entries as mutable fields. It takes the Go methods' steps in their order. The six methods that change state (AddBook, UpdateBook, DeleteBook, GetBook, AddBookToUser, RemoveBookFromUser) are each proved to produce exactly the `CacheAside` function's result and new state. ListBooks and GetUserBooks are read-only and state their selection directly. ExpireEntry is stated against `Cache.Expire`.
- **Store** (`Postgres`, postgres.dfy, and `Query`, query.dfy).
  - The PostgreSQL statements are operations on an in-memory table of books plus a set of (user, book) pairs.
  - "No row" becomes ErrBookNotFound; any other driver error is wrapped.
  - The two list statements are built by methods that append arguments and conditions as the Go code does.
  - The conditions are proved to be numbered `$1..$n` (or `$2..` after the user id), and the WHERE clause keeps exactly the books the filter matches. `Query.Holds` reads a condition string back through the injectivity of the placeholder text.
  - The database's answer is a selection loop over the rows for which every built condition holds with the bound arguments. It returns each such row once: in title order when the statement ends with ORDER BY title ASC, in an unspecified order otherwise.

Store and cache failures are not random in the model; they are parameters. `Faults` says which of the store statement, cache read, cache write and cache delete fail in one call. `fault: Option<string>` gives a failing statement's driver message. The id generator's output is the `uuid` parameter of AddBook.

## Model

| member | source | states |
|---|---|---|
| Auth.Lookup | internal/auth/middleware.go:45-50 | the table search answers true exactly when the name is one of the table's entries |
| Auth.IsPublicMethod | internal/auth/middleware.go:40-51 | public exactly for the full names of GetBook and ListBooks |
| Auth.IsAdminMethod | internal/auth/middleware.go:53-65 | admin-only exactly for the full names of AddBook, UpdateBook and DeleteBook |
| Auth.Intercept | internal/auth/middleware.go:16-38 | a refusal is Unauthenticated or PermissionDenied; an accepted call keeps every other context value; an admin-only call is accepted only with first role "admin" |
| Auth.Roles | internal/auth/middleware.go:26-29 | no roles exactly when the role key is missing or holds no values; otherwise the values under the key, in order |
| Auth.PublicPassesThrough | internal/auth/middleware.go:17-19 | GetBook and ListBooks reach the handler with the context unchanged, with or without metadata |
| Auth.UnauthenticatedIffNoMetadata | internal/auth/middleware.go:21-24 | Unauthenticated is returned if and only if a non-public call has no metadata |
| Auth.MissingRoleIsPermissionDenied | internal/auth/middleware.go:26-29 | metadata without x-user-role values gives PermissionDenied "role not provided" |
| Auth.NonAdminIsDenied | internal/auth/middleware.go:31-33 | an admin-only call whose first role is not "admin" gives PermissionDenied "admin role required" |
| Auth.AcceptedCarriesFirstRole | internal/auth/middleware.go:31-37 | an accepted non-public call runs with roles[0] stored under "user_role" |
| Auth.OnlyFirstRoleCounts | internal/auth/middleware.go:31-35 | two role lists with the same first element get the same decision |
| Auth.TablesAreDisjoint | internal/auth/middleware.go:40-64 | no method is both public and admin-only |
| Auth.ExtendedNameIsNotAdmin | internal/auth/middleware.go:53-65 | a name that extends an admin method's name is not admin-only (exact match, not prefix) |
| TitleOrder.LexLeTotal | internal/storage/postres/postgres.go:91 | the title order compares any two titles |
| TitleOrder.LexLeTransitive | internal/storage/postres/postgres.go:91 | the title order is transitive |
| TitleOrder.LexLeAntisymmetric | internal/storage/postres/postgres.go:91 | two titles ordered both ways are equal |
| TitleOrder.FirstByTitleExists | internal/storage/postres/postgres.go:91 | every non-empty set of rows has a row no later by title than all others |
| Query.Terms | internal/storage/postres/postgres.go:72-85 | a nil filter gives no test; present fields give one test each, in author, year, genre order |
| Query.TermsMeanFilter | internal/storage/postres/postgres.go:72-85 | a book passes all tests exactly when it matches the filter (AND of the present fields) |
| Query.Decimal | internal/storage/postres/postgres.go:75 | the `%d` text of a placeholder number is non-empty and has one digit exactly below 10 |
| Query.DecimalInjective | internal/storage/postres/postgres.go:75 | different numbers print as different texts |
| Query.ConditionInjective | internal/storage/postres/postgres.go:75-83 | a condition's text determines its column and placeholder number |
| Query.Condition | internal/storage/postres/postgres.go:73-84 | a condition's text starts with the given prefix and goes on past it (ConditionInjective reads column and number back) |
| Query.ConsecutiveConditionsMeanTerms | internal/storage/postres/postgres.go:87-88 | conditions numbered on from the arguments bound before them, with the tests' arguments after those, all hold for a book exactly when it passes every test |
| Query.NumberedConditionMeansTerm | internal/storage/postres/postgres.go:73-84 | one `column = $k` condition holds with the bound arguments exactly when the book's column equals its test's argument |
| Query.BuildListBooksConditions | internal/storage/postres/postgres.go:69-85 | one argument and one condition per present field; condition i uses placeholder $(i+1), the argument count after its append |
| Query.ListStep | internal/storage/postres/postgres.go:73-75 | appending a test appends one argument and one condition numbered by the new argument count |
| Query.ListBooksWhereIsFilter | internal/storage/postres/postgres.go:69-91 | ListBooks's WHERE clause keeps exactly the books the filter matches |
| Query.ListBooksQueryShape | internal/storage/postres/postgres.go:87-91 | the statement always ends with ORDER BY title ASC; with no present field nothing else is added |
| Query.ListBooksQuery | internal/storage/postres/postgres.go:87-91 | the statement starts with the SELECT ... WHERE 1=1 base, goes on past it, and ends with ORDER BY title ASC |
| Query.Join | internal/storage/postres/postgres.go:88 | `strings.Join`: nothing for no parts; otherwise the result starts with the first part and ends with the last |
| Query.JoinAppend | internal/storage/postres/postgres.go:88 | joining one more part puts the separator between it and what was joined before |
| Query.ConditionsAreAnded | internal/storage/postres/postgres.go:88 | the text combines conditions with AND: each further ListBooks condition follows an ` AND `, and every clause GetUserBooks appends starts with one |
| Query.UserBooksQueryUnordered | internal/storage/postres/postgres.go:103-133 | GetUserBooks's statement never ends with ORDER BY title ASC: it ends with a placeholder number or the `$1` of its base |
| Query.UserBooksQuery | internal/storage/postres/postgres.go:103-133 | the statement starts with the JOIN and the `user_id = $1` clause |
| Query.BuildUserBooksQuery | internal/storage/postres/postgres.go:114-133 | $1 is the user id; each present field appends one argument and one clause numbered from $2; paramCounter stays len(args)+1 |
| Query.UserStep | internal/storage/postres/postgres.go:118-121 | one append step keeps the query, the arguments and paramCounter = len(args)+1 in step |
| Query.UserBooksWhereIsFilter | internal/storage/postres/postgres.go:112-133 | GetUserBooks's appended clauses keep exactly the books the filter matches |
| Postgres.WrapRowError | internal/storage/postres/postgres.go:48-53 | sql.ErrNoRows, and only it, becomes ErrBookNotFound; other errors are wrapped with the operation name |
| Postgres.RowById | internal/storage/postres/postgres.go:40-55 | the single-row `WHERE book_id = $1` read: the stored row exactly when the id exists and the driver is healthy, ErrNoRows exactly when the id is missing and the driver is healthy |
| Postgres.GetBook | internal/storage/postres/postgres.go:33-56 | the stored row when the id exists; not-found without a driver fault; a driver error otherwise |
| Postgres.AddBook | internal/storage/postres/postgres.go:143-180 | an empty id is replaced by the generated one and a given id is kept; the row is inserted unless that id exists; on error nothing changes and the error is never not-found |
| Postgres.UpdateBook | internal/storage/postres/postgres.go:181-216 | title, author, year and genre of the row are replaced and its id stays; a missing id is not-found; on error nothing changes |
| Postgres.DeleteBook | internal/storage/postres/postgres.go:217-235 | the row is removed and its id returned; a missing id is not-found |
| Postgres.DeletePair | internal/storage/postres/postgres.go:238-246 | the users_books DELETE ... RETURNING book_id: returns the book id and removes the pair exactly when it is held and the driver is healthy; ErrNoRows exactly when it is not held; otherwise nothing changes |
| Postgres.AddBookToUser | internal/storage/postres/postgres.go:237-254 | succeeds whenever the driver does and returns the book id; the (user, book) pair is removed, not added; never not-found |
| Postgres.RemoveBookFromUser | internal/storage/postres/postgres.go:255-274 | removes the pair and returns the book id; an absent pair is not-found |
| Postgres.SelectRows | internal/storage/postres/postgres.go:93-94 | each selected row exactly once as stored, in ascending title order when ordered |
| Postgres.ProgressStep | internal/storage/postres/postgres.go:91-94 | taking the first remaining row by title keeps the selection partial and sorted |
| Postgres.MatchingIds | internal/storage/postres/postgres.go:59-91 | the books the filter keeps are exactly the stored rows for which every condition ListBooks builds holds with its bound arguments |
| Postgres.OwnedMatchingIds | internal/storage/postres/postgres.go:103-133 | the user's books the filter keeps are exactly the rows the JOIN pairs with the user for which every appended clause holds with its bound arguments |
| Postgres.ListBooks | internal/storage/postres/postgres.go:57-100 | with a healthy driver, the rows the built WHERE clause keeps, which are every book matching the filter, once each and sorted by title; a driver error is wrapped with postgres.ListBooks |
| Postgres.GetUserBooks | internal/storage/postres/postgres.go:101-142 | with a healthy driver, the rows the built statement keeps, which are every matching book the user holds, once each; a driver error is wrapped with postgres.GetUserBooks |
| Cache.Get | internal/storage/redis/redis.go:39-54 | a hit returns the stored snapshot; an absent key is a miss, not an error |
| Cache.Set | internal/storage/redis/redis.go:56-63 | on success the key holds the book; other keys never change; a failed write changes nothing |
| Cache.Invalidate | internal/storage/redis/redis.go:65-67 | on success the key is absent; other keys never change; a failed delete changes nothing |
| Cache.Expire | internal/storage/redis/redis.go:62 | an expired key is absent and nothing else changes |
| CacheAside.Wrap | internal/services/bookService/bookService.go:58-61 | a store error is returned under the service operation's name with the store error as its cause; success passes through |
| CacheAside.CacheKeyInjective | internal/services/bookService/bookService.go:79 | distinct ids have distinct cache keys |
| CacheAside.CacheKey | internal/services/bookService/bookService.go:111 | the key is `book:` followed by the whole id, so the id can be read back from it |
| CacheAside.CachedUnderOwnKey | internal/services/bookService/bookService.go:111-118 | in a valid state the entry under an id's key holds the book with that id |
| CacheAside.AddBook | internal/services/bookService/bookService.go:49-64 | the store's result, wrapped; the cache is never touched; validity is kept |
| CacheAside.UpdateBook | internal/services/bookService/bookService.go:65-86 | the store's result, wrapped; only after a store success is the book's entry deleted, and a failed delete changes nothing else |
| CacheAside.DeleteBook | internal/services/bookService/bookService.go:87-103 | the store's result, wrapped; the cache is never touched |
| CacheAside.GetBook | internal/services/bookService/bookService.go:104-132 | never changes the store; an error is the store's and leaves everything unchanged; a returned book carries the requested id |
| CacheAside.AddBookToUser | internal/services/bookService/bookService.go:166-182 | the store's result, wrapped; no cache interaction |
| CacheAside.RemoveBookFromUser | internal/services/bookService/bookService.go:183-199 | the store's result, wrapped; no cache interaction |
| CacheAside.HitIgnoresStore | internal/services/bookService/bookService.go:111-119 | a cache hit returns the cached book unchanged, whatever the store holds or how it fails |
| CacheAside.CacheErrorActsAsMiss | internal/services/bookService/bookService.go:112-121 | a cache read error gives the same result as an absent entry |
| CacheAside.MissReadsThrough | internal/services/bookService/bookService.go:121-131 | on a miss the store's row is returned and written under book:id; it is still returned when that write fails |
| CacheAside.MissStoreErrorCachesNothing | internal/services/bookService/bookService.go:121-125 | on a miss a store error is returned wrapped and the cache is not written |
| CacheAside.CacheFaultsNeverFail | internal/services/bookService/bookService.go:80-82 | every error is a store error; cache faults do not change any write's result |
| CacheAside.BrokenCacheIsTransparent | internal/services/bookService/bookService.go:112-129 | with every cache call failing, GetBook is a plain wrapped store read |
| CacheAside.UpdateThenGetIsFresh | internal/services/bookService/bookService.go:73-85 | after a successful update and invalidation, the next GetBook returns the updated book |
| CacheAside.FailedInvalidationServesStale | internal/services/bookService/bookService.go:79-82 | after a failed invalidation the next GetBook can return the old cached snapshot |
| CacheAside.DeletedBookStillServed | internal/services/bookService/bookService.go:95-102 | after a delete the book is gone from the store but a cached entry is still returned |
| CacheAside.SecondReadServedFromCache | internal/services/bookService/bookService.go:111-131 | once a read has filled the cache, a second read returns the same book even with the store failing |
| CacheAside.MissingBookIsNotFound | internal/services/bookService/bookService.go:121-124 | with a healthy store, a missing book or pair is reported as not-found by GetBook, UpdateBook, DeleteBook and RemoveBookFromUser |
| CacheAside.DriverFailureIsNotNotFound | internal/services/bookService/bookService.go:57-60 | a driver failure is always an error and never reported as not-found |
| Orchestrator.BookService.constructor | internal/services/bookService/bookService.go:35-47 | the service starts over the given store and cache state |
| Orchestrator.BookService.AddBook | internal/services/bookService/bookService.go:49-64 | result and new store/cache state are those of CacheAside.AddBook; validity kept |
| Orchestrator.BookService.UpdateBook | internal/services/bookService/bookService.go:65-86 | result and new state are those of CacheAside.UpdateBook |
| Orchestrator.BookService.DeleteBook | internal/services/bookService/bookService.go:87-103 | result and new state are those of CacheAside.DeleteBook |
| Orchestrator.BookService.GetBook | internal/services/bookService/bookService.go:104-132 | result and new state are those of CacheAside.GetBook |
| Orchestrator.BookService.ListBooks | internal/services/bookService/bookService.go:133-148 | every matching stored book once, sorted by title; a store error wrapped with BookService.ListBooks |
| Orchestrator.BookService.GetUserBooks | internal/services/bookService/bookService.go:149-165 | the user's matching books once each; a store error wrapped with BookService.GetUserBooks |
| Orchestrator.BookService.AddBookToUser | internal/services/bookService/bookService.go:166-182 | result and new state are those of CacheAside.AddBookToUser |
| Orchestrator.BookService.RemoveBookFromUser | internal/services/bookService/bookService.go:183-199 | result and new state are those of CacheAside.RemoveBookFromUser |
| Orchestrator.BookService.ExpireEntry | internal/storage/redis/redis.go:62 | TTL expiry removes one cache entry and leaves the store alone |
| Transport.CheckAddBook | internal/grpc/book-service/server.go:37-42 | valid exactly with a non-empty title and author; an empty title is reported before an empty author, both as InvalidArgument |
| Transport.CheckBookId | internal/grpc/book-service/server.go:66-68 | an empty book id, and only that, gives InvalidArgument "book id is required" |
| Transport.CheckUserBook | internal/grpc/book-service/server.go:166-171 | the user id is checked before the book id; valid exactly when both are non-empty |
| Transport.CheckUserId | internal/grpc/book-service/server.go:203-205 | an empty user id, and only that, gives InvalidArgument "user id is required" |
| Transport.UpdateSkipsTitleAndAuthorChecks | internal/grpc/book-service/server.go:88-98 | UpdateBook validates only the id, so a request with an empty title or author passes where AddBook's check fails |
| Transport.FilterFrom | internal/grpc/book-service/server.go:132-141 | a filter field is present exactly when the request's value is non-empty (non-zero for the year), and then equals it |
| Transport.FilterFromMeaning | internal/grpc/book-service/server.go:132-141 | the built filter keeps a book exactly when every non-empty, non-zero request field equals the book's |
| Transport.EmptyRequestKeepsAll | internal/grpc/book-service/server.go:132-141 | a request with no field, or only empty and zero fields, keeps every book |
| Transport.ErrorText | internal/grpc/book-service/server.go:50 | the error text starts with the service operation and carries the store operation and the cause |
| Transport.ToStatus | internal/grpc/book-service/server.go:49-51 | every service error, not-found included, becomes Internal with the error's text |
| Transport.MessageRoundTrip | internal/grpc/book-service/server.go:53-59 | the response message carries every field of the book; a fully set message is that of the book it carries |
| Transport.ToMessage | internal/grpc/book-service/server.go:53-59 | the message always sets the optional year and genre fields (MessageRoundTrip reads every field back) |
| Transport.ToMessages | internal/grpc/book-service/server.go:148-157 | one message per book, in the same order, each the book's message |
| Transport.Reply | internal/grpc/book-service/server.go:49-59 | success gives exactly the book's message, year and genre set, from which the book reads back; an error gives Internal |
| Transport.ReplyId | internal/grpc/book-service/server.go:120-125 | success gives the returned id; an error gives Internal |
| Transport.ServerApi.constructor | internal/grpc/book-service/server.go:28-30 | the handlers forward to the given service |
| Transport.ServerApi.AddBook | internal/grpc/book-service/server.go:32-60 | an invalid request is refused without touching the service; otherwise the service adds a book with empty id and the request's fields |
| Transport.ServerApi.GetBook | internal/grpc/book-service/server.go:61-82 | an empty id is refused without touching the service; otherwise the reply is the service's GetBook |
| Transport.ServerApi.UpdateBook | internal/grpc/book-service/server.go:84-110 | an empty id is refused; otherwise the request's fields go to the service unchecked |
| Transport.ServerApi.DeleteBook | internal/grpc/book-service/server.go:112-126 | an empty id is refused; otherwise the reply is the service's DeleteBook |
| Transport.ServerApi.ListBooks | internal/grpc/book-service/server.go:128-160 | the messages carry every book the request's filter keeps, once each and sorted by title, each with year and genre set; a store error becomes Internal |
| Transport.ServerApi.AddBookToUser | internal/grpc/book-service/server.go:162-179 | user id, then book id, are required; otherwise the reply is the service's AddBookToUser |
| Transport.ServerApi.RemoveBookFromUser | internal/grpc/book-service/server.go:181-198 | user id, then book id, are required; otherwise the reply is the service's RemoveBookFromUser |
| Transport.ServerApi.GetUserBooks | internal/grpc/book-service/server.go:199-235 | an empty user id is refused; otherwise the messages carry the user's books the filter keeps, once each, each with year and genre set |

## Left out

- Logging is not modelled. Context deadlines and cancellation are not modelled separately: they surface only as a store or cache fault, which the `Faults` parameters cover.
- Orchestrator.BookService.constructor: the cache is assumed to hold only entries written under their own book's key (`book:<id>` holds the book with that id), as this service writes them. Go's `New` accepts whatever Redis holds. From a cache with a foreign entry under `book:X`, GetBook would return that other book, and the promise that a returned book carries the requested id would not hold.
- Concurrency is not modelled. Each call runs alone, so races between GetBook's write-back and UpdateBook's invalidation are outside the model.
- Server lifecycle, configuration loading, the Kafka producer and the Prometheus metrics are not modelled. They are plumbing around the core.
- Failures and the id generator come in as parameters: which store and cache calls fail, the driver's message, and the generated UUID. A generated id that is already taken is a duplicate-key error, as the INSERT would report.
- Postgres.AddBook: the Go code also writes the generated id into the caller's book in place. The model returns the stored row instead. The orchestrator returns that row, so no caller sees a difference.
- Auth.Roles: `md.Get` lower-cases the key it looks up. Metadata keys are taken as already lower-case, as gRPC delivers them.
- Query.ListBooksQuery: the SQL text is modelled with the whitespace of the Go string literals collapsed to single spaces. Executing a statement is modelled by its meaning (the filter) rather than by parsing SQL.
- TitleOrder.LexLe: ORDER BY title is taken as code-point order (the "C" collation). The order of rows with equal titles is left open, as it is in the database.
- Postgres.GetUserBooks: the statement has no ORDER BY, so the model leaves the order of the user's books unspecified.
- Postgres.Table: users_books is a set of pairs. Duplicate association rows, and foreign-key behaviour when a held book is deleted, are not modelled. A held book missing from books is dropped by the JOIN.
- Transport.ErrorText: the text of storage.ErrBookNotFound is a stand-in (internal/storage is not part of this model). Driver messages, including the duplicate-key one, are abstract strings.
- Cache.Get: JSON encoding of the cached book is taken as an exact round trip. Marshalling failures are folded into the `fails` flag. The TTL duration is not modelled; expiry is the explicit `Cache.Expire` step.
- Wire encoding of requests and responses is not modelled. Requests are datatypes whose optional proto fields are `Option`s read with the proto getters' zero defaults.

=== FILE: auth.dfy ===
/** The access guard (internal/auth/middleware.go): a unary interceptor that
    decides, from the full method name and the incoming metadata alone,
    whether the handler runs and with which context. */
module Auth {
  import opened Domain
  import opened Grpc

  const AdminRole := "admin"
  /** The context key under which the accepted role is passed downstream. */
  const UserRoleKey := "user_role"
  /** The metadata key that carries the caller's roles. */
  const RoleHeader := "x-user-role"

  const GetBookMethod := "/bookService.BookService/GetBook"
  const ListBooksMethod := "/bookService.BookService/ListBooks"
  const AddBookMethod := "/bookService.BookService/AddBook"
  const UpdateBookMethod := "/bookService.BookService/UpdateBook"
  const DeleteBookMethod := "/bookService.BookService/DeleteBook"

  const PublicMethods: seq<string> := [GetBookMethod, ListBooksMethod]
  const AdminMethods: seq<string> := [AddBookMethod, UpdateBookMethod, DeleteBookMethod]

  /** Incoming gRPC metadata: each key maps to its list of values. */
  type Metadata = map<string, seq<string>>
  /** The values attached to the request context with `context.WithValue`. */
  type Context = map<string, string>

  /** What the interceptor does with a call: run the handler with a context,
      or answer with an error status without running it. */
  datatype Decision = Proceed(ctx: Context) | Reject(status: Status)

  /** The `for range` search over a fixed method table: exact string equality. */
  function Lookup(table: seq<string>, name: string): (found: bool)
    ensures found <==> name in table
  {
    if table == [] then false
    else table[0] == name || Lookup(table[1..], name)
  }

  function IsPublicMethod(fullMethod: string): (public: bool)
    ensures public <==> fullMethod == GetBookMethod || fullMethod == ListBooksMethod
  {
    Lookup(PublicMethods, fullMethod)
  }

  function IsAdminMethod(fullMethod: string): (admin: bool)
    ensures admin <==> fullMethod == AddBookMethod || fullMethod == UpdateBookMethod || fullMethod == DeleteBookMethod
  {
    Lookup(AdminMethods, fullMethod)
  }

  /** `md.Get("x-user-role")`: the values under the role key, none if it is missing. */
  function Roles(md: Metadata): (roles: seq<string>)
    ensures roles == [] <==> RoleHeader !in md || md[RoleHeader] == []
    ensures roles != [] ==> roles == md[RoleHeader]
  {
    if RoleHeader in md then md[RoleHeader] else []
  }

  /** AuthInterceptor. `incoming` is None when the context carries no incoming metadata. */
  function Intercept(fullMethod: string, incoming: Option<Metadata>, ctx: Context): (d: Decision)
    ensures d.Reject? ==> d.status.code == Unauthenticated || d.status.code == PermissionDenied
    ensures d.Proceed? ==> forall k :: k in ctx && k != UserRoleKey ==> k in d.ctx && d.ctx[k] == ctx[k]
    ensures d.Proceed? && IsAdminMethod(fullMethod) ==>
      incoming.Some? && Roles(incoming.value) != [] && Roles(incoming.value)[0] == AdminRole
  {
    if IsPublicMethod(fullMethod) then Proceed(ctx)
    else if incoming.None? then Reject(Status(Unauthenticated, "metadata is not provided"))
    else
      var roles := Roles(incoming.value);
      if |roles| == 0 then Reject(Status(PermissionDenied, "role not provided"))
      else if IsAdminMethod(fullMethod) && roles[0] != AdminRole then Reject(Status(PermissionDenied, "admin role required"))
      else Proceed(ctx[UserRoleKey := roles[0]])
  }

  /** A public method reaches the handler with the caller's context untouched,
      whatever the metadata, even when there is none. */
  lemma PublicPassesThrough(fullMethod: string, incoming: Option<Metadata>, ctx: Context)
    requires fullMethod == GetBookMethod || fullMethod == ListBooksMethod
    ensures Intercept(fullMethod, incoming, ctx) == Proceed(ctx)
  {
  }

  /** Unauthenticated is answered exactly when a non-public call has no metadata. */
  lemma UnauthenticatedIffNoMetadata(fullMethod: string, incoming: Option<Metadata>, ctx: Context)
    ensures Intercept(fullMethod, incoming, ctx).Reject? && Intercept(fullMethod, incoming, ctx).status.code == Unauthenticated
        <==> !IsPublicMethod(fullMethod) && incoming.None?
  {
  }

  /** Metadata without any role value is refused as PermissionDenied, not Unauthenticated. */
  lemma MissingRoleIsPermissionDenied(fullMethod: string, md: Metadata, ctx: Context)
    requires !IsPublicMethod(fullMethod) && Roles(md) == []
    ensures Intercept(fullMethod, Some(md), ctx) == Reject(Status(PermissionDenied, "role not provided"))
  {
  }

  /** An admin-only method whose first role is not "admin" is refused. */
  lemma NonAdminIsDenied(fullMethod: string, md: Metadata, ctx: Context)
    requires IsAdminMethod(fullMethod) && Roles(md) != [] && Roles(md)[0] != AdminRole
    ensures Intercept(fullMethod, Some(md), ctx) == Reject(Status(PermissionDenied, "admin role required"))
  {
  }

  /** Every call that is neither public nor refused reaches the handler with the
      first role stored under "user_role"; the rest of the context is kept. */
  lemma AcceptedCarriesFirstRole(fullMethod: string, md: Metadata, ctx: Context)
    requires !IsPublicMethod(fullMethod) && Roles(md) != []
    requires !IsAdminMethod(fullMethod) || Roles(md)[0] == AdminRole
    ensures Intercept(fullMethod, Some(md), ctx) == Proceed(ctx[UserRoleKey := Roles(md)[0]])
  {
  }

  /** Roles after the first are never looked at. */
  lemma OnlyFirstRoleCounts(fullMethod: string, md1: Metadata, md2: Metadata, ctx: Context)
    requires Roles(md1) != [] && Roles(md2) != [] && Roles(md1)[0] == Roles(md2)[0]
    ensures Intercept(fullMethod, Some(md1), ctx) == Intercept(fullMethod, Some(md2), ctx)
  {
  }

  /** No method is in both tables, so no call is both waved through and checked for "admin". */
  lemma TablesAreDisjoint(fullMethod: string)
    ensures !(IsPublicMethod(fullMethod) && IsAdminMethod(fullMethod))
  {
  }

  /** Classification is by whole-name equality: a name that merely starts with
      an admin method's name (say ".../AddBookExtended") is not admin-only. */
  lemma ExtendedNameIsNotAdmin(adminMethod: string, suffix: string)
    requires adminMethod in AdminMethods && suffix != ""
    ensures !IsAdminMethod(adminMethod + suffix)
  {
    var name := adminMethod + suffix;
    if adminMethod == AddBookMethod {
      // UpdateBook and DeleteBook are longer than AddBook, but differ from it at the
      // first letter after the service prefix.
      assert name[25] == 'A';
      assert UpdateBookMethod[25] == 'U' && DeleteBookMethod[25] == 'D';
    }
    assert |name| > |adminMethod|;
  }
}

=== FILE: book_service.dfy ===
/** The orchestrator object of internal/services/bookService/bookService.go.
    Its collaborators (store and cache) are held as the state they manage;
    each method takes the same steps as the Go method and is proved to follow
    the specification in CacheAside. */
module Orchestrator {
  import opened Domain
  import opened TitleOrder
  import Postgres
  import Cache
  import opened CacheAside

  class BookService {
    /** The store's tables, as the store sees them. */
    var table: Postgres.Table
    /** The cache's entries, as the cache sees them. */
    var cache: Cache.Entries

    /** The combined state, for comparison with the specification. */
    function Snapshot(): State
      reads this
    {
      State(table, cache)
    }

    ghost predicate Valid()
      reads this
    {
      Snapshot().Valid()
    }

    /** Lines 35-47: wires the collaborators together. */
    constructor (table: Postgres.Table, cache: Cache.Entries)
      requires State(table, cache).Valid()
      ensures Snapshot() == State(table, cache)
      ensures Valid()
    {
      this.table := table;
      this.cache := cache;
    }

    /** Lines 49-64. */
    method AddBook(b: Book, uuid: string, f: Faults) returns (r: Result<Book, ServiceError>)
      requires Valid()
      modifies this
      ensures Valid()
      ensures (r, Snapshot()) == CacheAside.AddBook(old(Snapshot()), b, uuid, f)
    {
      var (stored, t) := Postgres.AddBook(table, b, uuid, f.store);
      table := t;
      if stored.Err? {
        return Err(ServiceError(AddBookOp, stored.error));
      }
      return Ok(stored.value);
    }

    /** Lines 65-86. */
    method UpdateBook(b: Book, f: Faults) returns (r: Result<Book, ServiceError>)
      requires Valid()
      modifies this
      ensures Valid()
      ensures (r, Snapshot()) == CacheAside.UpdateBook(old(Snapshot()), b, f)
    {
      var (updated, t) := Postgres.UpdateBook(table, b, f.store);
      table := t;
      if updated.Err? {
        return Err(ServiceError(UpdateBookOp, updated.error));
      }
      // A failed delete of the entry is only logged.
      var (_, entries) := Cache.Invalidate(cache, CacheKey(b.id), f.cacheInvalidate);
      cache := entries;
      return Ok(updated.value);
    }

    /** Lines 87-103. */
    method DeleteBook(id: string, f: Faults) returns (r: Result<string, ServiceError>)
      requires Valid()
      modifies this
      ensures Valid()
      ensures (r, Snapshot()) == CacheAside.DeleteBook(old(Snapshot()), id, f)
    {
      var (deleted, t) := Postgres.DeleteBook(table, id, f.store);
      table := t;
      if deleted.Err? {
        return Err(ServiceError(DeleteBookOp, deleted.error));
      }
      return Ok(deleted.value);
    }

    /** Lines 104-132. */
    method GetBook(id: string, f: Faults) returns (r: Result<Book, ServiceError>)
      requires Valid()
      modifies this
      ensures Valid()
      ensures (r, Snapshot()) == CacheAside.GetBook(old(Snapshot()), id, f)
    {
      var key := CacheKey(id);
      // A cache error is only logged and reads as a miss.
      var cached := Cache.Get(cache, key, f.cacheGet);
      if cached.Hit? {
        return Ok(cached.book);
      }
      var stored := Postgres.GetBook(table, id, f.store);
      if stored.Err? {
        return Err(ServiceError(GetBookOp, stored.error));
      }
      // A failed write-back is only logged.
      var (_, entries) := Cache.Set(cache, key, stored.value, f.cacheSet);
      cache := entries;
      return Ok(stored.value);
    }

    /** Lines 133-148: the store's listing, every matching book once, by title. */
    method ListBooks(filter: Option<BookFilter>, fault: Option<string>) returns (r: Result<seq<Book>, ServiceError>)
      requires Valid()
      ensures fault.Some? ==> r == Err(ServiceError(ListBooksOp, Postgres.StoreError(Postgres.ListBooksOp, Postgres.DriverError(fault.value))))
      ensures fault.None? ==> r.Ok? && Postgres.IsSelection(table.books, Postgres.MatchingIds(table, filter), r.value)
      ensures fault.None? ==> r.Ok? && SortedByTitle(r.value)
    {
      var books := Postgres.ListBooks(table, filter, fault);
      if books.Err? {
        return Err(ServiceError(ListBooksOp, books.error));
      }
      return Ok(books.value);
    }

    /** Lines 149-165: the user's matching books, once each. */
    method GetUserBooks(userID: string, filter: Option<BookFilter>, fault: Option<string>) returns (r: Result<seq<Book>, ServiceError>)
      requires Valid()
      ensures fault.Some? ==> r == Err(ServiceError(GetUserBooksOp, Postgres.StoreError(Postgres.GetUserBooksOp, Postgres.DriverError(fault.value))))
      ensures fault.None? ==> r.Ok? && Postgres.IsSelection(table.books, Postgres.OwnedMatchingIds(table, userID, filter), r.value)
    {
      var books := Postgres.GetUserBooks(table, userID, filter, fault);
      if books.Err? {
        return Err(ServiceError(GetUserBooksOp, books.error));
      }
      return Ok(books.value);
    }

    /** Lines 166-182. */
    method AddBookToUser(userID: string, bookID: string, f: Faults) returns (r: Result<string, ServiceError>)
      requires Valid()
      modifies this
      ensures Valid()
      ensures (r, Snapshot()) == CacheAside.AddBookToUser(old(Snapshot()), userID, bookID, f)
    {
      var (saved, t) := Postgres.AddBookToUser(table, userID, bookID, f.store);
      table := t;
      if saved.Err? {
        return Err(ServiceError(AddBookToUserOp, saved.error));
      }
      return Ok(saved.value);
    }

    /** Lines 183-199. */
    method RemoveBookFromUser(userID: string, bookID: string, f: Faults) returns (r: Result<string, ServiceError>)
      requires Valid()
      modifies this
      ensures Valid()
      ensures (r, Snapshot()) == CacheAside.RemoveBookFromUser(old(Snapshot()), userID, bookID, f)
    {
      var (removed, t) := Postgres.RemoveBookFromUser(table, userID, bookID, f.store);
      table := t;
      if removed.Err? {
        return Err(ServiceError(RemoveBookFromUserOp, removed.error));
      }
      return Ok(removed.value);
    }

    /** The time-to-live of a cache entry runs out: the entry disappears and
        the store is untouched. */
    method ExpireEntry(key: string)
      requires Valid()
      modifies this
      ensures Valid()
      ensures table == old(table) && cache == Cache.Expire(old(cache), key)
    {
      cache := Cache.Expire(cache, key);
    }
  }
}

=== FILE: cache.dfy ===
/** The speed cache (internal/storage/redis/redis.go) as a key-value map of
    book snapshots. A missing key is a miss, not an error; `fails` stands for a
    Redis or JSON error on that one call. */
module Cache {
  import opened Domain

  type Entries = map<string, Book>

  /** The three outcomes of a cache read: a cached book, an absent key, an error. */
  datatype Lookup = Hit(book: Book) | Miss | Failed

  /** Lines 39-54: `redis.Nil` (absent key) is a miss, reported without error. */
  function Get(entries: Entries, key: string, fails: bool): (r: Lookup)
    ensures r.Failed? <==> fails
    ensures r.Hit? <==> !fails && key in entries
    ensures r.Hit? ==> r.book == entries[key]
  {
    if fails then Failed
    else if key in entries then Hit(entries[key])
    else Miss
  }

  /** Lines 56-63: stores the snapshot under the key; the boolean says the call
      succeeded. A failed write leaves the cache as it was. */
  function Set(entries: Entries, key: string, b: Book, fails: bool): (res: (bool, Entries))
    ensures res.0 <==> !fails
    ensures res.0 ==> key in res.1 && res.1[key] == b
    ensures forall k :: k != key ==> (k in res.1 <==> k in entries) && (k in res.1 ==> res.1[k] == entries[k])
    ensures fails ==> res.1 == entries
  {
    if fails then (false, entries) else (true, entries[key := b])
  }

  /** Lines 65-67: deletes the key; deleting an absent key succeeds. */
  function Invalidate(entries: Entries, key: string, fails: bool): (res: (bool, Entries))
    ensures res.0 <==> !fails
    ensures res.0 ==> key !in res.1
    ensures forall k :: k != key ==> (k in res.1 <==> k in entries) && (k in res.1 ==> res.1[k] == entries[k])
    ensures fails ==> res.1 == entries
  {
    if fails then (false, entries) else (true, entries - {key})
  }

  /** The entry's time-to-live (line 62) has run out: the key is gone and
      nothing else changes. */
  function Expire(entries: Entries, key: string): (e: Entries)
    ensures key !in e
    ensures forall k :: k != key ==> (k in e <==> k in entries) && (k in e ==> e[k] == entries[k])
  {
    entries - {key}
  }
}

=== FILE: cache_aside.dfy ===
/** The book orchestrator (internal/services/bookService/bookService.go) as a
    pure specification over the combined state of the store and the cache.
    Each operation returns its result and the state after the call; the
    `BookService` class in book_service.dfy is proved to follow it. Cache
    errors are only logged by the orchestrator, so they never surface as
    results. */
module CacheAside {
  import opened Domain
  import Postgres
  import Cache

  const AddBookOp := "BookService.AddBook"
  const UpdateBookOp := "BookService.UpdateBook"
  const DeleteBookOp := "BookService.DeleteBook"
  const GetBookOp := "BookService.GetBook"
  const ListBooksOp := "BookService.ListBooks"
  const GetUserBooksOp := "BookService.GetUserBooks"
  const AddBookToUserOp := "BookService.AddBookToUser"
  const RemoveBookFromUserOp := "BookService.RemoveBookFromUser"

  /** Which calls fail during one service call: the store's statement (with the
      driver's message), the cache read, the cache write, the cache delete. */
  datatype Faults = Faults(store: Option<string>, cacheGet: bool, cacheSet: bool, cacheInvalidate: bool)

  /** `fmt.Errorf("%s: %w", op, err)` around a store error. */
  datatype ServiceError = ServiceError(op: string, cause: Postgres.StoreError) {
    /** `errors.Is(err, storage.ErrBookNotFound)` sees through both wrappings. */
    predicate IsNotFound() {
      cause.IsNotFound()
    }
  }

  /** Wraps a store failure with the service operation's name; a success passes through. */
  function Wrap<T>(op: string, r: Result<T, Postgres.StoreError>): (w: Result<T, ServiceError>)
    ensures w.Ok? <==> r.Ok?
    ensures w.Ok? ==> w.value == r.value
    ensures w.Err? ==> w.error.op == op && w.error.cause == r.error
  {
    match r
    case Ok(v) => Ok(v)
    case Err(e) => Err(ServiceError(op, e))
  }

  /** `fmt.Sprintf("book:%s", id)`. */
  function CacheKey(id: string): (key: string)
    ensures |key| == 5 + |id| && key[..5] == "book:" && key[5..] == id
  {
    "book:" + id
  }

  /** Distinct books never share a cache entry. */
  lemma CacheKeyInjective(a: string, b: string)
    requires CacheKey(a) == CacheKey(b)
    ensures a == b
  {
    assert a == CacheKey(a)[5..];
  }

  /** In a valid state the entry under a book's key holds that book. */
  lemma CachedUnderOwnKey(s: State, id: string)
    ensures s.Valid() && CacheKey(id) in s.cache ==> s.cache[CacheKey(id)].id == id
  {
    if s.Valid() && CacheKey(id) in s.cache {
      CacheKeyInjective(s.cache[CacheKey(id)].id, id);
    }
  }

  /** The store's tables and the cache's entries. */
  datatype State = State(table: Postgres.Table, cache: Cache.Entries) {
    /** The table keeps rows under their ids, and each cache entry sits under
        the key of the book it holds. */
    ghost predicate Valid() {
      && table.Valid()
      && forall k :: k in cache ==> k == CacheKey(cache[k].id)
    }
  }

  /** Lines 49-64: straight to the store; the cache is not touched. */
  function AddBook(s: State, b: Book, uuid: string, f: Faults): (res: (Result<Book, ServiceError>, State))
    ensures res.1.cache == s.cache
    ensures var stored := Postgres.AddBook(s.table, b, uuid, f.store);
      res.0 == Wrap(AddBookOp, stored.0) && res.1.table == stored.1
    ensures s.Valid() ==> res.1.Valid()
  {
    var (r, t) := Postgres.AddBook(s.table, b, uuid, f.store);
    (Wrap(AddBookOp, r), State(t, s.cache))
  }

  /** Lines 65-86: the store first; only after it succeeds the book's cache
      entry is deleted, and a failed delete still reports success. */
  function UpdateBook(s: State, b: Book, f: Faults): (res: (Result<Book, ServiceError>, State))
    ensures var stored := Postgres.UpdateBook(s.table, b, f.store);
      && res.0 == Wrap(UpdateBookOp, stored.0)
      && res.1.table == stored.1
      && res.1.cache == if stored.0.Ok? then Cache.Invalidate(s.cache, CacheKey(b.id), f.cacheInvalidate).1 else s.cache
    ensures s.Valid() ==> res.1.Valid()
  {
    var (r, t) := Postgres.UpdateBook(s.table, b, f.store);
    if r.Err? then (Wrap(UpdateBookOp, r), State(t, s.cache))
    else
      var (_, entries) := Cache.Invalidate(s.cache, CacheKey(b.id), f.cacheInvalidate);
      (Wrap(UpdateBookOp, r), State(t, entries))
  }

  /** Lines 87-103: the cache entry of the deleted book is left in place. */
  function DeleteBook(s: State, id: string, f: Faults): (res: (Result<string, ServiceError>, State))
    ensures res.1.cache == s.cache
    ensures var stored := Postgres.DeleteBook(s.table, id, f.store);
      res.0 == Wrap(DeleteBookOp, stored.0) && res.1.table == stored.1
    ensures s.Valid() ==> res.1.Valid()
  {
    var (r, t) := Postgres.DeleteBook(s.table, id, f.store);
    (Wrap(DeleteBookOp, r), State(t, s.cache))
  }

  /** Lines 104-132: a cache hit is returned without asking the store; a miss
      or a cache error falls through to the store, whose book is then written
      back to the cache; a store error is returned and nothing is cached. */
  function GetBook(s: State, id: string, f: Faults): (res: (Result<Book, ServiceError>, State))
    ensures res.1.table == s.table
    ensures res.0.Err? ==> res.0.error.op == GetBookOp && res.1 == s
    ensures s.Valid() && res.0.Ok? ==> res.0.value.id == id
    ensures s.Valid() ==> res.1.Valid()
  {
    var key := CacheKey(id);
    match Cache.Get(s.cache, key, f.cacheGet)
    case Hit(cached) =>
      CachedUnderOwnKey(s, id);
      (Ok(cached), s)
    case _ =>
      match Postgres.GetBook(s.table, id, f.store)
      case Err(e) => (Err(ServiceError(GetBookOp, e)), s)
      case Ok(b) =>
        var (_, entries) := Cache.Set(s.cache, key, b, f.cacheSet);
        (Ok(b), s.(cache := entries))
  }

  /** Lines 166-182. */
  function AddBookToUser(s: State, userID: string, bookID: string, f: Faults): (res: (Result<string, ServiceError>, State))
    ensures res.1.cache == s.cache
    ensures var stored := Postgres.AddBookToUser(s.table, userID, bookID, f.store);
      res.0 == Wrap(AddBookToUserOp, stored.0) && res.1.table == stored.1
    ensures s.Valid() ==> res.1.Valid()
  {
    var (r, t) := Postgres.AddBookToUser(s.table, userID, bookID, f.store);
    (Wrap(AddBookToUserOp, r), State(t, s.cache))
  }

  /** Lines 183-199. */
  function RemoveBookFromUser(s: State, userID: string, bookID: string, f: Faults): (res: (Result<string, ServiceError>, State))
    ensures res.1.cache == s.cache
    ensures var stored := Postgres.RemoveBookFromUser(s.table, userID, bookID, f.store);
      res.0 == Wrap(RemoveBookFromUserOp, stored.0) && res.1.table == stored.1
    ensures s.Valid() ==> res.1.Valid()
  {
    var (r, t) := Postgres.RemoveBookFromUser(s.table, userID, bookID, f.store);
    (Wrap(RemoveBookFromUserOp, r), State(t, s.cache))
  }

  /** The cache read finds nothing usable: an absent key or a cache error. */
  predicate Misses(s: State, id: string, f: Faults) {
    f.cacheGet || CacheKey(id) !in s.cache
  }

  /** A cache hit is served as it is: neither the store nor its faults matter,
      and nothing changes. */
  lemma HitIgnoresStore(s: State, id: string, f: Faults)
    requires !Misses(s, id, f)
    ensures GetBook(s, id, f) == (Ok(s.cache[CacheKey(id)]), s)
    ensures forall t: Postgres.Table, store: Option<string> ::
      GetBook(s.(table := t), id, f.(store := store)).0 == Ok(s.cache[CacheKey(id)])
  {
  }

  /** A cache error behaves exactly like an absent key. */
  lemma CacheErrorActsAsMiss(s: State, id: string, f: Faults)
    requires f.cacheGet
    ensures GetBook(s, id, f).0 == GetBook(s.(cache := s.cache - {CacheKey(id)}), id, f.(cacheGet := false)).0
  {
  }

  /** Read-through: on a miss the store's row is returned and written back to
      the cache unless that write fails; the result does not depend on it. */
  lemma MissReadsThrough(s: State, id: string, f: Faults)
    requires Misses(s, id, f)
    requires f.store.None? && id in s.table.books
    ensures GetBook(s, id, f).0 == Ok(s.table.books[id])
    ensures GetBook(s, id, f).1 == if f.cacheSet then s else s.(cache := s.cache[CacheKey(id) := s.table.books[id]])
  {
  }

  /** On a miss, a store error is returned wrapped and the cache is not written. */
  lemma MissStoreErrorCachesNothing(s: State, id: string, f: Faults)
    requires Misses(s, id, f)
    requires Postgres.GetBook(s.table, id, f.store).Err?
    ensures GetBook(s, id, f) == (Err(ServiceError(GetBookOp, Postgres.GetBook(s.table, id, f.store).error)), s)
  {
  }

  /** The only errors any operation returns are the store's, wrapped: every
      cache failure is swallowed. For the writes the outcome is the same as
      with a healthy cache. */
  lemma CacheFaultsNeverFail(s: State, f: Faults, b: Book, uuid: string, id: string, userID: string)
    ensures GetBook(s, id, f).0.Err? ==>
      GetBook(s, id, f).0 == Err(ServiceError(GetBookOp, Postgres.GetBook(s.table, id, f.store).error))
    ensures var healthy := Faults(f.store, false, false, false);
      && AddBook(s, b, uuid, f) == AddBook(s, b, uuid, healthy)
      && UpdateBook(s, b, f).0 == UpdateBook(s, b, healthy).0
      && DeleteBook(s, id, f) == DeleteBook(s, id, healthy)
      && AddBookToUser(s, userID, id, f) == AddBookToUser(s, userID, id, healthy)
      && RemoveBookFromUser(s, userID, id, f) == RemoveBookFromUser(s, userID, id, healthy)
  {
  }

  /** With every cache call failing, a read is a plain store read. */
  lemma BrokenCacheIsTransparent(s: State, id: string, store: Option<string>)
    ensures GetBook(s, id, Faults(store, true, true, true)) ==
      (Wrap(GetBookOp, Postgres.GetBook(s.table, id, store)), s)
  {
  }

  /** A successful update invalidates the book's entry (unless that delete
      fails), so the next read fetches the new row from the store. */
  lemma UpdateThenGetIsFresh(s: State, b: Book, f: Faults, g: Faults)
    requires s.Valid()
    requires UpdateBook(s, b, f).0.Ok? && !f.cacheInvalidate
    requires g.store.None?
    ensures UpdateBook(s, b, f).0 == Ok(b)
    ensures GetBook(UpdateBook(s, b, f).1, b.id, g).0 == Ok(b)
  {
    var s' := UpdateBook(s, b, f).1;
    assert CacheKey(b.id) !in s'.cache;
    assert s'.table.books[b.id] == b;
  }

  /** A failed invalidation leaves the old snapshot in the cache, and a later
      read serves it instead of the updated row. */
  lemma FailedInvalidationServesStale(s: State, b: Book, f: Faults, g: Faults)
    requires s.Valid()
    requires UpdateBook(s, b, f).0.Ok? && f.cacheInvalidate
    requires CacheKey(b.id) in s.cache && !g.cacheGet
    ensures GetBook(UpdateBook(s, b, f).1, b.id, g).0 == Ok(s.cache[CacheKey(b.id)])
  {
  }

  /** A deleted book whose entry is cached is still served until the entry expires. */
  lemma DeletedBookStillServed(s: State, id: string, f: Faults, g: Faults)
    requires DeleteBook(s, id, f).0.Ok?
    requires CacheKey(id) in s.cache && !g.cacheGet
    ensures id !in DeleteBook(s, id, f).1.table.books
    ensures GetBook(DeleteBook(s, id, f).1, id, g).0 == Ok(s.cache[CacheKey(id)])
  {
  }

  /** Cache-aside round trip: once a read has populated the cache, a second
      read returns the same book even when the store is failing. */
  lemma SecondReadServedFromCache(s: State, id: string, f: Faults, g: Faults)
    requires GetBook(s, id, f).0.Ok?
    requires !f.cacheSet && !g.cacheGet
    ensures GetBook(GetBook(s, id, f).1, id, g).0 == GetBook(s, id, f).0
  {
    var (r, s') := GetBook(s, id, f);
    if Misses(s, id, f) {
      assert s'.cache == s.cache[CacheKey(id) := r.value];
    } else {
      assert s' == s;
    }
  }

  /** Not-found travels unchanged through the wrapping: with a healthy store a
      missing book is reported as not found, never as another failure. */
  lemma MissingBookIsNotFound(s: State, id: string, b: Book, userID: string, f: Faults)
    requires f.store.None?
    ensures Misses(s, id, f) && id !in s.table.books ==>
      GetBook(s, id, f).0.Err? && GetBook(s, id, f).0.error.IsNotFound()
    ensures b.id !in s.table.books ==>
      UpdateBook(s, b, f).0.Err? && UpdateBook(s, b, f).0.error.IsNotFound()
    ensures id !in s.table.books ==>
      DeleteBook(s, id, f).0.Err? && DeleteBook(s, id, f).0.error.IsNotFound()
    ensures (userID, id) !in s.table.owns ==>
      RemoveBookFromUser(s, userID, id, f).0.Err? && RemoveBookFromUser(s, userID, id, f).0.error.IsNotFound()
  {
  }

  /** A driver failure is never reported as not found. */
  lemma DriverFailureIsNotNotFound(s: State, id: string, b: Book, uuid: string, userID: string, f: Faults)
    requires f.store.Some?
    ensures GetBook(s, id, f).0.Err? ==> !GetBook(s, id, f).0.error.IsNotFound()
    ensures UpdateBook(s, b, f).0.Err? && !UpdateBook(s, b, f).0.error.IsNotFound()
    ensures DeleteBook(s, id, f).0.Err? && !DeleteBook(s, id, f).0.error.IsNotFound()
    ensures AddBook(s, b, uuid, f).0.Err? && !AddBook(s, b, uuid, f).0.error.IsNotFound()
    ensures RemoveBookFromUser(s, userID, id, f).0.Err? && !RemoveBookFromUser(s, userID, id, f).0.error.IsNotFound()
  {
  }
}

=== FILE: domain.dfy ===
/** The values every layer exchanges: the book record and the list filter
    (internal/domain/book.go), plus the option and result wrappers that stand
    for Go's nil pointers and (value, error) pairs. */
module Domain {

  /** A Go pointer that may be nil. */
  datatype Option<+T> = None | Some(value: T) {
    /** What a protobuf getter returns: the value, or the zero value when absent. */
    function GetOr(zero: T): T {
      if Some? then value else zero
    }
  }

  /** A Go `(value, error)` pair in which exactly one side is meaningful. */
  datatype Result<+T, +E> = Ok(value: T) | Err(error: E)

  /** Go's `int32`, the type of the publication year. */
  newtype Int32 = x: int | -0x8000_0000 <= x < 0x8000_0000

  datatype Book = Book(
    id: string,
    title: string,
    author: string,
    publicationYear: Int32,
    genre: string)

  /** Three optional equality constraints; an absent field constrains nothing. */
  datatype BookFilter = BookFilter(
    author: Option<string>,
    publicationYear: Option<Int32>,
    genre: Option<string>)

  /** A book passes a filter when it agrees with every field the filter has
      (the fields are combined with AND); a nil filter lets every book pass. */
  predicate Matches(filter: Option<BookFilter>, b: Book) {
    filter.None? ||
    ((filter.value.author.Some? ==> b.author == filter.value.author.value) &&
     (filter.value.publicationYear.Some? ==> b.publicationYear == filter.value.publicationYear.value) &&
     (filter.value.genre.Some? ==> b.genre == filter.value.genre.value))
  }
}

=== FILE: postgres.dfy ===
/** The entity store (internal/storage/postres/postgres.go) as operations on an
    in-memory table. `fault` stands for a driver error (connection lost,
    statement rejected...): Some(message) makes the statement fail with that
    message, None lets it run against the table. */
module Postgres {
  import opened Domain
  import opened TitleOrder
  import Query

  const GetBookOp := "postgres.GetBook"
  const ListBooksOp := "postgres.ListBooks"
  const GetUserBooksOp := "postgres.GetUserBooks"
  const AddBookOp := "postgres.AddBook"
  const UpdateBookOp := "postgres.UpdateBook"
  const DeleteBookOp := "postgres.DeleteBook"
  const AddBookToUserOp := "postgres.AddBookToUser"
  const RemoveBookFromUserOp := "postgres.RemoveBookFromUser"

  /** The message PostgreSQL gives when an INSERT repeats an existing book_id. */
  const DuplicateKey := "duplicate key value violates unique constraint"

  /** What a store error wraps: storage.ErrBookNotFound or a driver error. */
  datatype Cause = ErrBookNotFound | DriverError(message: string)

  /** `fmt.Errorf("%s: %w", op, cause)`. */
  datatype StoreError = StoreError(op: string, cause: Cause) {
    /** `errors.Is(err, storage.ErrBookNotFound)`. */
    predicate IsNotFound() {
      cause == ErrBookNotFound
    }
  }

  /** How a single-row statement fails: no row matched, or the driver failed. */
  datatype RowError = ErrNoRows | DbError(message: string)

  /** The not-found mapping: sql.ErrNoRows becomes ErrBookNotFound, any other
      error is wrapped as it is; both carry the operation's name. */
  function WrapRowError(op: string, e: RowError): (err: StoreError)
    ensures err.op == op
    ensures err.IsNotFound() <==> e == ErrNoRows
    ensures e.DbError? ==> err.cause == DriverError(e.message)
  {
    match e
    case ErrNoRows => StoreError(op, ErrBookNotFound)
    case DbError(m) => StoreError(op, DriverError(m))
  }

  /** The books table keyed by book_id, and the users_books association table. */
  datatype Table = Table(books: map<string, Book>, owns: set<(string, string)>) {
    /** Every row is stored under its own book_id. */
    ghost predicate Valid() {
      forall id :: id in books ==> books[id].id == id
    }
  }

  /** A statement `... WHERE book_id = $1 RETURNING ...` scanned into one row. */
  function RowById(t: Table, id: string, fault: Option<string>): (r: Result<Book, RowError>)
    ensures r.Ok? <==> fault.None? && id in t.books
    ensures r.Ok? ==> r.value == t.books[id]
    ensures r == Err(ErrNoRows) <==> fault.None? && id !in t.books
  {
    if fault.Some? then Err(DbError(fault.value))
    else if id in t.books then Ok(t.books[id])
    else Err(ErrNoRows)
  }

  /** Lines 33-56. */
  function GetBook(t: Table, id: string, fault: Option<string>): (r: Result<Book, StoreError>)
    ensures r.Ok? <==> fault.None? && id in t.books
    ensures r.Ok? ==> r.value == t.books[id]
    ensures r.Err? ==> r.error.op == GetBookOp && (r.error.IsNotFound() <==> fault.None?)
  {
    match RowById(t, id, fault)
    case Ok(b) => Ok(b)
    case Err(e) => Err(WrapRowError(GetBookOp, e))
  }

  /** Lines 143-180: an empty id is replaced by the generated `uuid`; a non-empty
      one is kept. The INSERT fails on a book_id already present. */
  function AddBook(t: Table, b: Book, uuid: string, fault: Option<string>): (res: (Result<Book, StoreError>, Table))
    ensures var id := if b.id == "" then uuid else b.id;
      && (res.0.Ok? <==> fault.None? && id !in t.books)
      && (res.0.Ok? ==> res.0.value == b.(id := id) && res.1 == t.(books := t.books[id := b.(id := id)]))
      && (res.0.Err? ==> res.1 == t && res.0.error.op == AddBookOp && !res.0.error.IsNotFound())
    ensures t.Valid() ==> res.1.Valid()
  {
    var row := if b.id == "" then b.(id := uuid) else b;
    if fault.Some? then (Err(StoreError(AddBookOp, DriverError(fault.value))), t)
    else if row.id in t.books then (Err(StoreError(AddBookOp, DriverError(DuplicateKey))), t)
    else (Ok(row), t.(books := t.books[row.id := row]))
  }

  /** Lines 181-216: title, author, publication year and genre of the row with
      the given id are replaced; its id stays. */
  function UpdateBook(t: Table, b: Book, fault: Option<string>): (res: (Result<Book, StoreError>, Table))
    ensures res.0.Ok? <==> fault.None? && b.id in t.books
    ensures res.0.Ok? ==>
      && res.0.value == t.books[b.id].(title := b.title, author := b.author, publicationYear := b.publicationYear, genre := b.genre)
      && res.1 == t.(books := t.books[b.id := res.0.value])
    ensures res.0.Ok? && t.Valid() ==> res.0.value == b
    ensures res.0.Err? ==> res.1 == t && res.0.error.op == UpdateBookOp && (res.0.error.IsNotFound() <==> fault.None?)
    ensures t.Valid() ==> res.1.Valid()
  {
    match RowById(t, b.id, fault)
    case Err(e) => (Err(WrapRowError(UpdateBookOp, e)), t)
    case Ok(current) =>
      var row := current.(title := b.title, author := b.author, publicationYear := b.publicationYear, genre := b.genre);
      (Ok(row), t.(books := t.books[b.id := row]))
  }

  /** Lines 217-235. */
  function DeleteBook(t: Table, id: string, fault: Option<string>): (res: (Result<string, StoreError>, Table))
    ensures res.0.Ok? <==> fault.None? && id in t.books
    ensures res.0.Ok? ==> res.0.value == id && res.1 == t.(books := t.books - {id})
    ensures res.0.Err? ==> res.1 == t && res.0.error.op == DeleteBookOp && (res.0.error.IsNotFound() <==> fault.None?)
    ensures t.Valid() ==> res.1.Valid()
  {
    match RowById(t, id, fault)
    case Err(e) => (Err(WrapRowError(DeleteBookOp, e)), t)
    case Ok(_) => (Ok(id), t.(books := t.books - {id}))
  }

  /** `DELETE FROM users_books WHERE user_id = $1 AND book_id = $2 RETURNING book_id`. */
  function DeletePair(t: Table, userID: string, bookID: string, fault: Option<string>): (res: (Result<string, RowError>, Table))
    ensures res.0.Ok? <==> fault.None? && (userID, bookID) in t.owns
    ensures res.0 == Err(ErrNoRows) <==> fault.None? && (userID, bookID) !in t.owns
    ensures res.0.Ok? ==> res.0.value == bookID
    ensures res.1 == if res.0.Ok? then t.(owns := t.owns - {(userID, bookID)}) else t
  {
    if fault.Some? then (Err(DbError(fault.value)), t)
    else if (userID, bookID) in t.owns then (Ok(bookID), t.(owns := t.owns - {(userID, bookID)}))
    else (Err(ErrNoRows), t)
  }

  /** Lines 237-254: despite its name this runs the same DELETE as
      RemoveBookFromUser, and a missing pair counts as success. */
  function AddBookToUser(t: Table, userID: string, bookID: string, fault: Option<string>): (res: (Result<string, StoreError>, Table))
    ensures res.0.Ok? <==> fault.None?
    ensures res.0.Ok? ==> res.0.value == bookID && res.1 == t.(owns := t.owns - {(userID, bookID)})
    ensures res.0.Err? ==> res.1 == t && res.0.error == StoreError(AddBookToUserOp, DriverError(fault.value))
    ensures t.Valid() ==> res.1.Valid()
  {
    var (r, t') := DeletePair(t, userID, bookID, fault);
    match r
    case Ok(returned) => (Ok(returned), t')
    case Err(ErrNoRows) => (Ok(bookID), t')
    case Err(DbError(m)) => (Err(StoreError(AddBookToUserOp, DriverError(m))), t')
  }

  /** Lines 255-274. */
  function RemoveBookFromUser(t: Table, userID: string, bookID: string, fault: Option<string>): (res: (Result<string, StoreError>, Table))
    ensures res.0.Ok? <==> fault.None? && (userID, bookID) in t.owns
    ensures res.0.Ok? ==> res.0.value == bookID && res.1 == t.(owns := t.owns - {(userID, bookID)})
    ensures res.0.Err? ==> res.1 == t && res.0.error.op == RemoveBookFromUserOp && (res.0.error.IsNotFound() <==> fault.None?)
    ensures t.Valid() ==> res.1.Valid()
  {
    var (r, t') := DeletePair(t, userID, bookID, fault);
    match r
    case Ok(returned) => (Ok(returned), t')
    case Err(e) => (Err(WrapRowError(RemoveBookFromUserOp, e)), t')
  }

  /** The ids of a sequence of rows. */
  function RowIds(rows: seq<Book>): (ids: set<string>)
    ensures forall i :: 0 <= i < |rows| ==> rows[i].id in ids
  {
    if rows == [] then {} else RowIds(rows[..|rows| - 1]) + {rows[|rows| - 1].id}
  }

  /** `rows` holds the rows of `ids`, each exactly once, as stored. */
  ghost predicate IsSelection(books: map<string, Book>, ids: set<string>, rows: seq<Book>)
    requires ids <= books.Keys
  {
    && RowIds(rows) == ids
    && |rows| == |ids|
    && forall i :: 0 <= i < |rows| ==> rows[i].id in books && rows[i] == books[rows[i].id]
  }

  /** What the database returns for a SELECT that keeps the rows `ids`: each of
      them once, in title order when `byTitle`, in an unspecified order otherwise
      (rows of equal title come in an unspecified order either way). */
  method SelectRows(books: map<string, Book>, ids: set<string>, byTitle: bool) returns (rows: seq<Book>)
    requires ids <= books.Keys
    requires forall id :: id in books ==> books[id].id == id
    ensures IsSelection(books, ids, rows)
    ensures byTitle ==> SortedByTitle(rows)
  {
    rows := [];
    var remaining := ids;
    ProgressStart(books, ids, byTitle);
    while remaining != {}
      invariant remaining <= ids
      invariant Progress(books, ids, byTitle, rows, remaining)
      decreases remaining
    {
      var k := NextId(books, remaining, byTitle);
      ProgressStep(books, ids, byTitle, rows, remaining, k);
      assert remaining - {k} < remaining;
      rows := rows + [books[k]];
      remaining := remaining - {k};
    }
    ProgressDone(books, ids, byTitle, rows);
  }

  /** The id the selection takes next: the first remaining one by title when
      the statement orders by title, any remaining one otherwise. */
  method NextId(books: map<string, Book>, remaining: set<string>, byTitle: bool) returns (k: string)
    requires remaining != {} && remaining <= books.Keys
    ensures k in remaining
    ensures byTitle ==> IsFirstByTitle(books, remaining, k)
  {
    if byTitle {
      FirstByTitleExists(books, remaining);
      k :| IsFirstByTitle(books, remaining, k);
    } else {
      k :| k in remaining;
    }
  }

  /** The selection loop's invariant: `rows` holds the ids already taken, in
      title order and no later than anything still to take when `byTitle`. */
  ghost predicate Progress(books: map<string, Book>, ids: set<string>, byTitle: bool, rows: seq<Book>, remaining: set<string>)
    requires ids <= books.Keys
  {
    && remaining <= ids
    && RowIds(rows) + remaining == ids && RowIds(rows) !! remaining
    && |rows| + |remaining| == |ids|
    && (forall i :: 0 <= i < |rows| ==> rows[i].id in books && rows[i] == books[rows[i].id])
    && (byTitle ==> SortedByTitle(rows))
    && (byTitle ==> forall i, k :: 0 <= i < |rows| && k in remaining ==> LexLe(rows[i].title, books[k].title))
  }

  /** Before the first row nothing is taken. Kept apart for the same reason
      as ProgressDone. */
  lemma ProgressStart(books: map<string, Book>, ids: set<string>, byTitle: bool)
    requires ids <= books.Keys
    ensures Progress(books, ids, byTitle, [], ids)
  {
  }

  /** Taking one more id (the first by title when `byTitle`) keeps the invariant. */
  lemma ProgressStep(books: map<string, Book>, ids: set<string>, byTitle: bool, rows: seq<Book>, remaining: set<string>, k: string)
    requires ids <= books.Keys && remaining <= ids
    requires forall id :: id in books ==> books[id].id == id
    requires Progress(books, ids, byTitle, rows, remaining)
    requires k in remaining && (byTitle ==> IsFirstByTitle(books, remaining, k))
    ensures Progress(books, ids, byTitle, rows + [books[k]], remaining - {k})
  {
    var b := books[k];
    assert (rows + [b])[..|rows|] == rows;
    assert RowIds(rows + [b]) == RowIds(rows) + {k};
    assert (RowIds(rows) + {k}) + (remaining - {k}) == ids;
    assert |remaining - {k}| == |remaining| - 1;
  }

  /** With nothing left to take, the rows are the whole selection. Kept apart:
      proved inside the loop's method it drives the solver past its budget. */
  lemma ProgressDone(books: map<string, Book>, ids: set<string>, byTitle: bool, rows: seq<Book>)
    requires ids <= books.Keys
    requires Progress(books, ids, byTitle, rows, {})
    ensures IsSelection(books, ids, rows)
    ensures byTitle ==> SortedByTitle(rows)
  {
  }

  /** The ids of the books a filter keeps: exactly the rows for which every
      condition ListBooks builds holds with the arguments it binds. */
  function MatchingIds(t: Table, filter: Option<BookFilter>): (ids: set<string>)
    ensures ids <= t.books.Keys
    ensures var ts := Query.Terms(filter);
      forall id :: id in ids <==> id in t.books && Query.AllHold("", Query.ListConditions(ts), Query.Args(ts), t.books[id])
  {
    ListWhereIsFilter(t, filter);
    set id | id in t.books && Matches(filter, t.books[id])
  }

  lemma ListWhereIsFilter(t: Table, filter: Option<BookFilter>)
    ensures var ts := Query.Terms(filter);
      forall id :: id in t.books ==>
        (Query.AllHold("", Query.ListConditions(ts), Query.Args(ts), t.books[id]) <==> Matches(filter, t.books[id]))
  {
    forall id | id in t.books
      ensures Query.AllHold("", Query.ListConditions(Query.Terms(filter)), Query.Args(Query.Terms(filter)), t.books[id])
          <==> Matches(filter, t.books[id])
    {
      Query.ListBooksWhereIsFilter(filter, t.books[id]);
    }
  }

  /** The ids of the books a user holds that a filter keeps: exactly the rows
      the JOIN on users_books pairs with the user bound to $1 and for which
      every clause GetUserBooks appends holds with the arguments it binds. */
  function OwnedMatchingIds(t: Table, userID: string, filter: Option<BookFilter>): (ids: set<string>)
    ensures ids <= t.books.Keys
    ensures var ts := Query.Terms(filter);
      forall id :: id in ids <==>
        && id in t.books
        && (userID, id) in t.owns
        && Query.AllHold(Query.UserClausePrefix, Query.UserClauses(ts), [Query.Text(userID)] + Query.Args(ts), t.books[id])
  {
    UserWhereIsFilter(t, userID, filter);
    set id | id in t.books && (userID, id) in t.owns && Matches(filter, t.books[id])
  }

  lemma UserWhereIsFilter(t: Table, userID: string, filter: Option<BookFilter>)
    ensures var ts := Query.Terms(filter);
      forall id :: id in t.books ==>
        (Query.AllHold(Query.UserClausePrefix, Query.UserClauses(ts), [Query.Text(userID)] + Query.Args(ts), t.books[id]) <==>
         Matches(filter, t.books[id]))
  {
    forall id | id in t.books
      ensures Query.AllHold(Query.UserClausePrefix, Query.UserClauses(Query.Terms(filter)), [Query.Text(userID)] + Query.Args(Query.Terms(filter)), t.books[id])
          <==> Matches(filter, t.books[id])
    {
      Query.UserBooksWhereIsFilter(userID, filter, t.books[id]);
    }
  }

  /** Lines 57-100: every book the filter keeps, once each, ascending by title. */
  method ListBooks(t: Table, filter: Option<BookFilter>, fault: Option<string>) returns (r: Result<seq<Book>, StoreError>)
    requires t.Valid()
    ensures fault.Some? ==> r == Err(StoreError(ListBooksOp, DriverError(fault.value)))
    ensures fault.None? ==> r.Ok? && IsSelection(t.books, MatchingIds(t, filter), r.value) && SortedByTitle(r.value)
  {
    var conditions, args := Query.BuildListBooksConditions(filter);
    var query := Query.ListBooksQuery(conditions);
    if fault.Some? {
      return Err(StoreError(ListBooksOp, DriverError(fault.value)));
    }
    // The database keeps the rows its WHERE clause holds for, ordered as the statement says.
    var kept := set id | id in t.books && Query.AllHold("", conditions, args, t.books[id]);
    assert kept == MatchingIds(t, filter);
    Query.ListBooksQueryShape(filter);
    var rows := SelectRows(t.books, kept, Query.Ordered(query));
    r := Ok(rows);
  }

  /** Lines 101-142: the user's books the filter keeps, once each, in no
      particular order (the statement has no ORDER BY). */
  method GetUserBooks(t: Table, userID: string, filter: Option<BookFilter>, fault: Option<string>) returns (r: Result<seq<Book>, StoreError>)
    requires t.Valid()
    ensures fault.Some? ==> r == Err(StoreError(GetUserBooksOp, DriverError(fault.value)))
    ensures fault.None? ==> r.Ok? && IsSelection(t.books, OwnedMatchingIds(t, userID, filter), r.value)
  {
    var query, args := Query.BuildUserBooksQuery(userID, filter);
    if fault.Some? {
      return Err(StoreError(GetUserBooksOp, DriverError(fault.value)));
    }
    // The JOIN pairs each book with its holders; `ub.user_id = $1` keeps the
    // user's pairs, and the appended clauses must hold as well. Those clauses
    // are UserClauses of the tests: BuildUserBooksQuery's ensures says the
    // statement is UserBooksQuery of them, with these arguments.
    var kept := set id | id in t.books && (userID, id) in t.owns && Query.AllHold(Query.UserClausePrefix, Query.UserClauses(Query.Terms(filter)), args, t.books[id]);
    assert kept == OwnedMatchingIds(t, userID, filter);
    Query.UserBooksQueryUnordered(Query.Terms(filter));
    var rows := SelectRows(t.books, kept, Query.Ordered(query));
    r := Ok(rows);
  }
}

=== FILE: query.dfy ===
/** The SQL text and bound arguments that the list queries of
    internal/storage/postres/postgres.go build from a filter, and what the
    database makes of their WHERE clauses. */
module Query {
  import opened Domain

  /** A value bound to a placeholder. */
  datatype Arg = Text(text: string) | Year(year: Int32)

  /** The filterable columns of the books table. */
  datatype Column = AuthorColumn | YearColumn | GenreColumn

  const Columns: seq<Column> := [AuthorColumn, YearColumn, GenreColumn]

  /** One equality test that a filter field asks for. */
  datatype Term = Term(column: Column, arg: Arg)

  function ColumnName(c: Column): string {
    match c
    case AuthorColumn => "author"
    case YearColumn => "publication_year"
    case GenreColumn => "genre"
  }

  /** Position of a column in the order the builders test the filter's fields. */
  function Rank(c: Column): nat {
    match c
    case AuthorColumn => 0
    case YearColumn => 1
    case GenreColumn => 2
  }

  /** A book row's value in a column. */
  function ColumnValue(b: Book, c: Column): Arg {
    match c
    case AuthorColumn => Text(b.author)
    case YearColumn => Year(b.publicationYear)
    case GenreColumn => Text(b.genre)
  }

  /** The tests a filter asks for: one per present field, author first, then
      publication year, then genre; none for a nil filter. */
  function Terms(filter: Option<BookFilter>): (ts: seq<Term>)
    ensures filter.None? ==> ts == []
    ensures forall i, j :: 0 <= i < j < |ts| ==> Rank(ts[i].column) < Rank(ts[j].column)
  {
    if filter.None? then []
    else
      var f := filter.value;
      (if f.author.Some? then [Term(AuthorColumn, Text(f.author.value))] else []) +
      (if f.publicationYear.Some? then [Term(YearColumn, Year(f.publicationYear.value))] else []) +
      (if f.genre.Some? then [Term(GenreColumn, Text(f.genre.value))] else [])
  }

  /** A row passes every test. */
  predicate Satisfies(b: Book, ts: seq<Term>) {
    forall i :: 0 <= i < |ts| ==> ColumnValue(b, ts[i].column) == ts[i].arg
  }

  /** The tests together say exactly what the filter says. */
  lemma TermsMeanFilter(filter: Option<BookFilter>, b: Book)
    ensures Satisfies(b, Terms(filter)) <==> Matches(filter, b)
  {
    if filter.Some? {
      var f := filter.value;
      var a := if f.author.Some? then [Term(AuthorColumn, Text(f.author.value))] else [];
      var y := if f.publicationYear.Some? then [Term(YearColumn, Year(f.publicationYear.value))] else [];
      var g := if f.genre.Some? then [Term(GenreColumn, Text(f.genre.value))] else [];
      assert Terms(filter) == a + y + g;
      assert Satisfies(b, a) <==> (f.author.Some? ==> b.author == f.author.value) by {
        if a != [] { assert a[0] == Term(AuthorColumn, Text(f.author.value)); }
      }
      assert Satisfies(b, y) <==> (f.publicationYear.Some? ==> b.publicationYear == f.publicationYear.value) by {
        if y != [] { assert y[0] == Term(YearColumn, Year(f.publicationYear.value)); }
      }
      assert Satisfies(b, g) <==> (f.genre.Some? ==> b.genre == f.genre.value) by {
        if g != [] { assert g[0] == Term(GenreColumn, Text(f.genre.value)); }
      }
      SatisfiesAppend(b, a, y);
      SatisfiesAppend(b, a + y, g);
    }
  }

  /** Passing a concatenation of tests is passing both parts. */
  lemma SatisfiesAppend(b: Book, xs: seq<Term>, ys: seq<Term>)
    ensures Satisfies(b, xs + ys) <==> Satisfies(b, xs) && Satisfies(b, ys)
  {
    var ts := xs + ys;
    if Satisfies(b, xs) && Satisfies(b, ys) {
      forall i | 0 <= i < |ts|
        ensures ColumnValue(b, ts[i].column) == ts[i].arg
      {
        if i >= |xs| { assert ts[i] == ys[i - |xs|]; }
      }
    }
    if Satisfies(b, ts) {
      forall i | 0 <= i < |xs|
        ensures ColumnValue(b, xs[i].column) == xs[i].arg
      {
        assert ts[i] == xs[i];
      }
      forall i | 0 <= i < |ys|
        ensures ColumnValue(b, ys[i].column) == ys[i].arg
      {
        assert ts[|xs| + i] == ys[i];
      }
    }
  }

  /** The arguments bound for a list of tests, in the same order. */
  function Args(ts: seq<Term>): seq<Arg> {
    seq(|ts|, i requires 0 <= i < |ts| => ts[i].arg)
  }

  function DigitChar(d: nat): char
    requires d < 10
  {
    "0123456789"[d]
  }

  /** The `%d` rendering of a natural number. */
  function Decimal(n: nat): (s: string)
    ensures s != []
    ensures |s| == 1 <==> n < 10
  {
    if n < 10 then [DigitChar(n)] else Decimal(n / 10) + [DigitChar(n % 10)]
  }

  /** The last character of a number's rendering is its last digit. */
  lemma DecimalEndsInDigit(n: nat)
    ensures Decimal(n)[|Decimal(n)| - 1] == DigitChar(n % 10)
  {
  }

  /** Different numbers are printed differently, so placeholders never collide. */
  lemma {:induction false} DecimalInjective(m: nat, n: nat)
    requires Decimal(m) == Decimal(n)
    ensures m == n
  {
    if m < 10 && n < 10 {
      assert Decimal(m)[0] == DigitChar(m) && Decimal(n)[0] == DigitChar(n);
    } else if m >= 10 && n >= 10 {
      var s := Decimal(m);
      assert s == Decimal(m / 10) + [DigitChar(m % 10)];
      assert s == Decimal(n / 10) + [DigitChar(n % 10)];
      assert Decimal(m / 10) == s[..|s| - 1] == Decimal(n / 10);
      DecimalInjective(m / 10, n / 10);
      assert DigitChar(m % 10) == s[|s| - 1] == DigitChar(n % 10);
    }
  }

  /** `fmt.Sprintf(prefix + column + " = $%d", k)`: one condition comparing a
      column with placeholder k. */
  function Condition(prefix: string, c: Column, k: nat): (cond: string)
    ensures prefix < cond
  {
    prefix + ColumnName(c) + " = $" + Decimal(k)
  }

  /** A condition names its column and its placeholder unambiguously. */
  lemma ConditionInjective(prefix: string, c1: Column, k1: nat, c2: Column, k2: nat)
    requires Condition(prefix, c1, k1) == Condition(prefix, c2, k2)
    ensures c1 == c2 && k1 == k2
  {
    var s := Condition(prefix, c1, k1);
    var n := |prefix|;
    assert s[n] == ColumnName(c1)[0];
    assert s[n] == ColumnName(c2)[0];
    assert c1 == c2;
    var m := n + |ColumnName(c1)| + 4;
    assert s[m..] == Decimal(k1);
    assert s[m..] == Decimal(k2);
    DecimalInjective(k1, k2);
  }

  /** What the database makes of one condition with the bound arguments: it
      compares the named column with argument k (placeholder $k, 1-based). */
  predicate Holds(prefix: string, cond: string, args: seq<Arg>, b: Book) {
    exists k: nat, c: Column | 1 <= k <= |args| && c in Columns :: cond == Condition(prefix, c, k) && ColumnValue(b, c) == args[k - 1]
  }

  /** A row passes a conjunction of conditions. */
  predicate AllHold(prefix: string, conds: seq<string>, args: seq<Arg>, b: Book) {
    forall i :: 0 <= i < |conds| ==> Holds(prefix, conds[i], args, b)
  }

  /** One condition per test, on the test's column, numbered $first, $first+1, ... */
  function NumberedConditions(prefix: string, ts: seq<Term>, first: nat): seq<string> {
    seq(|ts|, i requires 0 <= i < |ts| => Condition(prefix, ts[i].column, first + i))
  }

  /** Conditions numbered on from the arguments bound before them, followed by
      the tests' own arguments, select exactly the rows passing the tests. */
  lemma ConsecutiveConditionsMeanTerms(prefix: string, ts: seq<Term>, lead: seq<Arg>, b: Book)
    ensures AllHold(prefix, NumberedConditions(prefix, ts, |lead| + 1), lead + Args(ts), b) <==> Satisfies(b, ts)
  {
    forall i | 0 <= i < |ts|
      ensures Holds(prefix, NumberedConditions(prefix, ts, |lead| + 1)[i], lead + Args(ts), b)
        <==> ColumnValue(b, ts[i].column) == ts[i].arg
    {
      NumberedConditionMeansTerm(prefix, ts, lead, b, i);
    }
  }

  /** Condition i holds with those arguments exactly when the row passes test i. */
  lemma NumberedConditionMeansTerm(prefix: string, ts: seq<Term>, lead: seq<Arg>, b: Book, i: nat)
    requires i < |ts|
    ensures Holds(prefix, NumberedConditions(prefix, ts, |lead| + 1)[i], lead + Args(ts), b)
      <==> ColumnValue(b, ts[i].column) == ts[i].arg
  {
    var args := lead + Args(ts);
    var k := |lead| + i + 1;
    var c := ts[i].column;
    var cond := NumberedConditions(prefix, ts, |lead| + 1)[i];
    assert cond == Condition(prefix, c, k);
    assert args[k - 1] == ts[i].arg;
    if Holds(prefix, cond, args, b) {
      var k': nat, c': Column :| 1 <= k' <= |args| && c' in Columns && cond == Condition(prefix, c', k') && ColumnValue(b, c') == args[k' - 1];
      ConditionInjective(prefix, c', k', c, k);
    }
    if ColumnValue(b, c) == ts[i].arg {
      assert c in Columns by { assert c == Columns[Rank(c)]; }
    }
  }

  // ---- ListBooks (postgres.go:57-91) ----

  const ListBooksBase := "SELECT book_id as id, title, author, publication_year as publicationyear, genre FROM books WHERE 1=1"
  const OrderByTitle := " ORDER BY title ASC"

  /** The conditions ListBooks builds: test i compares its column with $(i+1). */
  function ListConditions(ts: seq<Term>): seq<string> {
    NumberedConditions("", ts, 1)
  }

  /** `strings.Join`. */
  function Join(parts: seq<string>, sep: string): (joined: string)
    ensures parts == [] ==> joined == []
    ensures parts != [] ==> parts[0] <= joined
    ensures parts != [] ==>
      var last := parts[|parts| - 1];
      |last| <= |joined| && joined[|joined| - |last|..] == last
  {
    if |parts| == 0 then ""
    else if |parts| == 1 then parts[0]
    else parts[0] + sep + Join(parts[1..], sep)
  }

  /** Joining one more part puts the separator between it and what was joined before. */
  lemma {:induction false} JoinAppend(parts: seq<string>, p: string, sep: string)
    requires parts != []
    ensures Join(parts + [p], sep) == Join(parts, sep) + sep + p
  {
    var ps := parts + [p];
    if |parts| == 1 {
      assert ps[1..] == [p];
      assert Join(ps, sep) == parts[0] + sep + p;
    } else {
      assert ps[1..] == parts[1..] + [p];
      JoinAppend(parts[1..], p, sep);
      var rest := Join(parts[1..], sep);
      assert Join(ps, sep) == parts[0] + sep + (rest + sep + p);
      assert Join(parts, sep) == parts[0] + sep + rest;
    }
  }

  /** The statements' text says what their meaning says: the conditions are
      combined with AND. In ListBooks every further condition follows an AND, and
      each clause GetUserBooks appends starts with one. */
  lemma ConditionsAreAnded(conditions: seq<string>, c: string)
    requires conditions != []
    ensures Join(conditions + [c], " AND ") == Join(conditions, " AND ") + " AND " + c
    ensures " AND " <= UserClausePrefix
  {
    JoinAppend(conditions, c, " AND ");
  }

  /** The statement text ListBooks sends: the conditions are ANDed onto `WHERE 1=1`,
      and the order clause always comes last. */
  function ListBooksQuery(conditions: seq<string>): (query: string)
    ensures ListBooksBase < query
    ensures Ordered(query)
  {
    ListBooksBase + (if |conditions| > 0 then " AND " + Join(conditions, " AND ") else "") + OrderByTitle
  }

  /** Lines 69-85: each present field appends one argument, then one condition
      whose placeholder is the argument count after that append. */
  method BuildListBooksConditions(filter: Option<BookFilter>) returns (conditions: seq<string>, args: seq<Arg>)
    ensures args == Args(Terms(filter))
    ensures conditions == ListConditions(Terms(filter))
  {
    args := [];
    conditions := [];
    ghost var ts: seq<Term> := [];
    if filter.Some? {
      var f := filter.value;
      if f.author.Some? {
        args := args + [Text(f.author.value)];
        conditions := conditions + [Condition("", AuthorColumn, |args|)];
        ListStep(ts, Term(AuthorColumn, Text(f.author.value)));
        ts := ts + [Term(AuthorColumn, Text(f.author.value))];
      }
      if f.publicationYear.Some? {
        args := args + [Year(f.publicationYear.value)];
        conditions := conditions + [Condition("", YearColumn, |args|)];
        ListStep(ts, Term(YearColumn, Year(f.publicationYear.value)));
        ts := ts + [Term(YearColumn, Year(f.publicationYear.value))];
      }
      if f.genre.Some? {
        args := args + [Text(f.genre.value)];
        conditions := conditions + [Condition("", GenreColumn, |args|)];
        ListStep(ts, Term(GenreColumn, Text(f.genre.value)));
        ts := ts + [Term(GenreColumn, Text(f.genre.value))];
      }
    }
    assert ts == Terms(filter);
  }

  /** Appending one test appends one argument and one condition numbered by the new argument count. */
  lemma ListStep(ts: seq<Term>, t: Term)
    ensures Args(ts + [t]) == Args(ts) + [t.arg]
    ensures ListConditions(ts + [t]) == ListConditions(ts) + [Condition("", t.column, |Args(ts + [t])|)]
  {
    assert Args(ts + [t]) == Args(ts) + [t.arg];
  }

  /** The rows ListBooks's WHERE clause keeps are exactly the filter's matches. */
  lemma ListBooksWhereIsFilter(filter: Option<BookFilter>, b: Book)
    ensures AllHold("", ListConditions(Terms(filter)), Args(Terms(filter)), b) <==> Matches(filter, b)
  {
    var ts := Terms(filter);
    assert [] + Args(ts) == Args(ts);
    ConsecutiveConditionsMeanTerms("", ts, [], b);
    TermsMeanFilter(filter, b);
  }

  /** The statement ends with the title ordering, so the database returns its
      rows ascending by title. */
  predicate Ordered(query: string) {
    |query| >= |OrderByTitle| && query[|query| - |OrderByTitle|..] == OrderByTitle
  }

  /** The statement always ends in the title ordering, and a filter without
      any present field (or a nil one) adds nothing before it. */
  lemma ListBooksQueryShape(filter: Option<BookFilter>)
    ensures Ordered(ListBooksQuery(ListConditions(Terms(filter))))
    ensures Terms(filter) == [] ==> ListBooksQuery(ListConditions(Terms(filter))) == ListBooksBase + OrderByTitle
  {
  }

  // ---- GetUserBooks (postgres.go:101-133) ----

  const UserBooksJoin := "SELECT b.book_id as id, b.title, b.author, b.publication_year as publicationyear, b.genre FROM books b JOIN users_books ub ON b.book_id = ub.book_id"
  /** The user id is always bound to $1. */
  const UserIdClause := " WHERE ub.user_id = $1"
  const UserBooksBase := UserBooksJoin + UserIdClause
  const UserClausePrefix := " AND b."

  /** The clauses GetUserBooks appends: $1 is the user id, so test i uses $(i+2). */
  function UserClauses(ts: seq<Term>): seq<string> {
    NumberedConditions(UserClausePrefix, ts, 2)
  }

  /** String concatenation of the parts, in order. */
  function Concat(parts: seq<string>): string {
    if parts == [] then "" else Concat(parts[..|parts| - 1]) + parts[|parts| - 1]
  }

  /** The statement text GetUserBooks sends: no ORDER BY is ever appended. */
  function UserBooksQuery(ts: seq<Term>): (query: string)
    ensures UserBooksBase <= query
  {
    UserBooksBase + Concat(UserClauses(ts))
  }

  /** Lines 114-133: the user id is bound first; `paramCounter` stays one more
      than the number of bound arguments. */
  method BuildUserBooksQuery(userID: string, filter: Option<BookFilter>) returns (query: string, args: seq<Arg>)
    ensures args == [Text(userID)] + Args(Terms(filter))
    ensures query == UserBooksQuery(Terms(filter))
  {
    query := UserBooksBase;
    args := [Text(userID)];
    var paramCounter := 2;
    ghost var ts: seq<Term> := [];
    assert UserBuilt(userID, ts, query, args, paramCounter);
    if filter.Some? {
      var f := filter.value;
      if f.author.Some? {
        UserStep(userID, ts, Term(AuthorColumn, Text(f.author.value)), query, args, paramCounter);
        args := args + [Text(f.author.value)];
        query := query + Condition(UserClausePrefix, AuthorColumn, paramCounter);
        paramCounter := paramCounter + 1;
        ts := ts + [Term(AuthorColumn, Text(f.author.value))];
      }
      if f.publicationYear.Some? {
        UserStep(userID, ts, Term(YearColumn, Year(f.publicationYear.value)), query, args, paramCounter);
        args := args + [Year(f.publicationYear.value)];
        query := query + Condition(UserClausePrefix, YearColumn, paramCounter);
        paramCounter := paramCounter + 1;
        ts := ts + [Term(YearColumn, Year(f.publicationYear.value))];
      }
      if f.genre.Some? {
        UserStep(userID, ts, Term(GenreColumn, Text(f.genre.value)), query, args, paramCounter);
        args := args + [Text(f.genre.value)];
        query := query + Condition(UserClausePrefix, GenreColumn, paramCounter);
        paramCounter := paramCounter + 1;
        ts := ts + [Term(GenreColumn, Text(f.genre.value))];
      }
    }
    assert ts == Terms(filter);
  }

  /** The builder's state after the tests `ts`: the text and arguments so far, and
      `paramCounter` one more than the number of bound arguments. */
  ghost predicate UserBuilt(userID: string, ts: seq<Term>, query: string, args: seq<Arg>, paramCounter: nat) {
    query == UserBooksQuery(ts) && args == [Text(userID)] + Args(ts) && paramCounter == |args| + 1
  }

  /** One `args = append(...)`, `baseQuery += fmt.Sprintf(" AND b.<column> = $%d", paramCounter)`,
      `paramCounter++` step keeps the builder's state in step with the tests. */
  lemma UserStep(userID: string, ts: seq<Term>, t: Term, query: string, args: seq<Arg>, paramCounter: nat)
    requires UserBuilt(userID, ts, query, args, paramCounter)
    ensures UserBuilt(userID, ts + [t], query + Condition(UserClausePrefix, t.column, paramCounter), args + [t.arg], paramCounter + 1)
  {
    ArgsAppend(ts, t);
    var clause := Condition(UserClausePrefix, t.column, paramCounter);
    UserClausesAppend(ts, t);
    var cs := UserClauses(ts + [t]);
    assert cs[..|cs| - 1] == UserClauses(ts);
    assert Concat(cs) == Concat(UserClauses(ts)) + clause;
    AppendAssociates(UserBooksBase, Concat(UserClauses(ts)), clause);
  }

  /** Kept apart so that the statement's long literal stays opaque to the step proof. */
  lemma AppendAssociates(a: string, b: string, c: string)
    ensures (a + b) + c == a + (b + c)
  {
  }

  /** Appending a test appends its argument. */
  lemma ArgsAppend(ts: seq<Term>, t: Term)
    ensures |Args(ts)| == |ts|
    ensures Args(ts + [t]) == Args(ts) + [t.arg]
  {
  }

  /** Appending a test appends one clause, numbered two past the tests before it. */
  lemma UserClausesAppend(ts: seq<Term>, t: Term)
    ensures UserClauses(ts + [t]) == UserClauses(ts) + [Condition(UserClausePrefix, t.column, |ts| + 2)]
  {
  }

  /** With the user id bound to $1, the appended clauses keep exactly the filter's matches. */
  lemma UserBooksWhereIsFilter(userID: string, filter: Option<BookFilter>, b: Book)
    ensures AllHold(UserClausePrefix, UserClauses(Terms(filter)), [Text(userID)] + Args(Terms(filter)), b) <==> Matches(filter, b)
  {
    var ts := Terms(filter);
    ConsecutiveConditionsMeanTerms(UserClausePrefix, ts, [Text(userID)], b);
    TermsMeanFilter(filter, b);
  }

  /** The last character of a concatenation is that of its last part. */
  lemma {:induction false} ConcatEndsWithLastPart(parts: seq<string>)
    requires parts != [] && parts[|parts| - 1] != []
    ensures var s := Concat(parts); var last := parts[|parts| - 1];
      |s| > 0 && s[|s| - 1] == last[|last| - 1]
  {
  }

  /** GetUserBooks's statement never ends with the title ordering: it ends
      with a placeholder number, or with the `$1` of its base. */
  lemma UserBooksQueryUnordered(ts: seq<Term>)
    ensures !Ordered(UserBooksQuery(ts))
  {
    if ts != [] {
      var clauses := UserClauses(ts);
      var k := |ts| + 1;
      var last := clauses[|clauses| - 1];
      assert last == Condition(UserClausePrefix, ts[|ts| - 1].column, k);
      DecimalEndsInDigit(k);
      ConcatEndsWithLastPart(clauses);
      EndsWithDigitIsUnordered(UserBooksBase, Concat(clauses), k % 10);
    } else {
      assert UserBooksQuery(ts) == UserBooksJoin + UserIdClause + "";
      EndsWithDigitIsUnordered(UserBooksJoin, UserIdClause, 1);
    }
  }

  /** A text whose last character is a digit cannot end with the title ordering. */
  lemma EndsWithDigitIsUnordered(a: string, b: string, d: nat)
    requires d < 10 && |b| > 0 && b[|b| - 1] == DigitChar(d)
    ensures !Ordered(a + b)
  {
    var q := a + b;
    assert q[|q| - 1] == DigitChar(d);
  }
}

=== FILE: server.dfy ===
/** The gRPC transport (internal/grpc/book-service/server.go): request
    validation, filter construction, error mapping and response building in
    front of the orchestrator. */
module Transport {
  import opened Domain
  import opened Grpc
  import opened TitleOrder
  import Postgres
  import CacheAside
  import Orchestrator

  /** gen.Book: the response message. Year and genre are optional proto fields. */
  datatype BookMessage = BookMessage(bookId: string, title: string, author: string, publicationYear: Option<Int32>, genre: Option<string>)

  datatype AddBookRequest = AddBookRequest(title: string, author: string, publicationYear: Option<Int32>, genre: Option<string>)
  datatype UpdateBookRequest = UpdateBookRequest(bookId: string, title: string, author: string, publicationYear: Option<Int32>, genre: Option<string>)
  datatype UserBookRequest = UserBookRequest(userId: string, bookId: string)
  datatype ListBooksRequest = ListBooksRequest(author: Option<string>, publicationYear: Option<Int32>, genre: Option<string>)
  datatype GetUserBooksRequest = GetUserBooksRequest(userId: string, author: Option<string>, publicationYear: Option<Int32>, genre: Option<string>)

  const TitleRequired := Status(InvalidArgument, "title is required")
  const AuthorRequired := Status(InvalidArgument, "author is required")
  const BookIdRequired := Status(InvalidArgument, "book id is required")
  const UserIdRequired := Status(InvalidArgument, "user id is required")

  /** Lines 37-42: the title is checked before the author. */
  function CheckAddBook(req: AddBookRequest): (v: Option<Status>)
    ensures v.None? <==> req.title != "" && req.author != ""
    ensures v.Some? ==> v.value.code == InvalidArgument
    ensures req.title == "" ==> v == Some(TitleRequired)
    ensures req.title != "" && req.author == "" ==> v == Some(AuthorRequired)
  {
    if req.title == "" then Some(TitleRequired)
    else if req.author == "" then Some(AuthorRequired)
    else None
  }

  /** Lines 66-68, 88-90, 116-118. */
  function CheckBookId(bookId: string): (v: Option<Status>)
    ensures v.None? <==> bookId != ""
    ensures v.Some? ==> v.value == BookIdRequired
  {
    if bookId == "" then Some(BookIdRequired) else None
  }

  /** Lines 166-171, 185-191: the user id is checked before the book id. */
  function CheckUserBook(req: UserBookRequest): (v: Option<Status>)
    ensures v.None? <==> req.userId != "" && req.bookId != ""
    ensures req.userId == "" ==> v == Some(UserIdRequired)
    ensures req.userId != "" && req.bookId == "" ==> v == Some(BookIdRequired)
  {
    if req.userId == "" then Some(UserIdRequired)
    else if req.bookId == "" then Some(BookIdRequired)
    else None
  }

  /** Lines 203-205. */
  function CheckUserId(userId: string): (v: Option<Status>)
    ensures v.None? <==> userId != ""
    ensures v.Some? ==> v.value == UserIdRequired
  {
    if userId == "" then Some(UserIdRequired) else None
  }

  /** An update request with a valid id passes validation whatever its title
      and author, while the same title and author would fail an AddBook. */
  lemma UpdateSkipsTitleAndAuthorChecks(req: UpdateBookRequest)
    requires req.bookId != ""
    ensures CheckBookId(req.bookId).None?
    ensures req.title == "" || req.author == "" ==>
      CheckAddBook(AddBookRequest(req.title, req.author, req.publicationYear, req.genre)).Some?
  {
  }

  /** Lines 132-141 and 207-216: an empty author or genre and a zero year
      leave that field of the filter absent; any other value is present. */
  function FilterFrom(author: Option<string>, publicationYear: Option<Int32>, genre: Option<string>): (f: BookFilter)
    ensures f.author.Some? <==> author.GetOr("") != ""
    ensures f.author.Some? ==> f.author == author
    ensures f.publicationYear.Some? <==> publicationYear.GetOr(0) != 0
    ensures f.publicationYear.Some? ==> f.publicationYear == publicationYear
    ensures f.genre.Some? <==> genre.GetOr("") != ""
    ensures f.genre.Some? ==> f.genre == genre
  {
    BookFilter(
      if author.GetOr("") != "" then author else None,
      if publicationYear.GetOr(0) != 0 then publicationYear else None,
      if genre.GetOr("") != "" then genre else None)
  }

  /** The filter a list request builds keeps a book exactly when each
      non-empty, non-zero field of the request equals the book's. */
  lemma FilterFromMeaning(author: Option<string>, publicationYear: Option<Int32>, genre: Option<string>, b: Book)
    ensures Matches(Some(FilterFrom(author, publicationYear, genre)), b) <==>
      && (author.GetOr("") == "" || b.author == author.value)
      && (publicationYear.GetOr(0) == 0 || b.publicationYear == publicationYear.value)
      && (genre.GetOr("") == "" || b.genre == genre.value)
  {
  }

  /** A list request with every field empty lists every book. */
  lemma EmptyRequestKeepsAll(b: Book)
    ensures Matches(Some(FilterFrom(None, None, None)), b)
    ensures Matches(Some(FilterFrom(Some(""), Some(0), Some(""))), b)
  {
  }

  /** The text of storage.ErrBookNotFound; internal/storage is not part of
      this model, so the text is a stand-in. */
  const NotFoundText := "book not found"

  /** `err.Error()` for an error wrapped by the store and then the orchestrator. */
  function ErrorText(e: CacheAside.ServiceError): (text: string)
    ensures |text| >= |e.op| + 2 && text[..|e.op| + 2] == e.op + ": "
    ensures e.IsNotFound() ==> text == e.op + ": " + e.cause.op + ": " + NotFoundText
    ensures e.cause.cause.DriverError? ==> text == e.op + ": " + e.cause.op + ": " + e.cause.cause.message
  {
    var cause := match e.cause.cause
      case ErrBookNotFound => NotFoundText
      case DriverError(m) => m;
    var text := e.op + ": " + e.cause.op + ": " + cause;
    assert text[..|e.op| + 2] == e.op + ": ";
    text
  }

  /** Lines 49-51 and their copies: every service error, not-found included,
      becomes Internal with the error's text. */
  function ToStatus(e: CacheAside.ServiceError): (s: Status)
    ensures s.code == Internal
    ensures s.message == ErrorText(e)
  {
    Status(Internal, ErrorText(e))
  }

  /** Lines 53-59: the book copied field by field into the message. */
  function ToMessage(b: Book): (m: BookMessage)
    ensures m.publicationYear.Some? && m.genre.Some?
  {
    BookMessage(b.id, b.title, b.author, Some(b.publicationYear), Some(b.genre))
  }

  /** Reading a message back with the proto getters (absent fields read as zero). */
  function FromMessage(m: BookMessage): Book {
    Book(m.bookId, m.title, m.author, m.publicationYear.GetOr(0), m.genre.GetOr(""))
  }

  /** The message carries the whole book, and a message with both optional
      fields set is the message of the book it carries. */
  lemma MessageRoundTrip(b: Book, m: BookMessage)
    ensures FromMessage(ToMessage(b)) == b
    ensures m.publicationYear.Some? && m.genre.Some? ==> ToMessage(FromMessage(m)) == m
  {
  }

  /** The books a list of messages carries. */
  function FromMessages(messages: seq<BookMessage>): seq<Book> {
    seq(|messages|, i requires 0 <= i < |messages| => FromMessage(messages[i]))
  }

  /** Lines 148-157 and 223-232: one message per book, in the same order. */
  method ToMessages(books: seq<Book>) returns (messages: seq<BookMessage>)
    ensures |messages| == |books|
    ensures forall i :: 0 <= i < |books| ==> messages[i] == ToMessage(books[i])
    ensures FromMessages(messages) == books
  {
    messages := [];
    for i := 0 to |books|
      invariant |messages| == i
      invariant forall j :: 0 <= j < i ==> messages[j] == ToMessage(books[j])
    {
      messages := messages + [ToMessage(books[i])];
    }
    forall i | 0 <= i < |books|
      ensures FromMessages(messages)[i] == books[i]
    {
      MessageRoundTrip(books[i], messages[i]);
    }
  }

  /** The reply to a single-book call: the book's message, or Internal. */
  function Reply(r: Result<Book, CacheAside.ServiceError>): (reply: Result<BookMessage, Status>)
    ensures reply.Ok? <==> r.Ok?
    ensures reply.Ok? ==> reply.value == ToMessage(r.value) && FromMessage(reply.value) == r.value
    ensures reply.Err? ==> reply.error == ToStatus(r.error) && reply.error.code == Internal
  {
    match r
    case Ok(b) => Ok(ToMessage(b))
    case Err(e) => Err(ToStatus(e))
  }

  /** The reply to a call answering with a book id. */
  function ReplyId(r: Result<string, CacheAside.ServiceError>): (reply: Result<string, Status>)
    ensures reply.Ok? <==> r.Ok?
    ensures reply.Ok? ==> reply.value == r.value
    ensures reply.Err? ==> reply.error == ToStatus(r.error) && reply.error.code == Internal
  {
    match r
    case Ok(id) => Ok(id)
    case Err(e) => Err(ToStatus(e))
  }

  /** The service handle behind the RPC handlers (`serverAPI`). */
  class ServerApi {
    const service: Orchestrator.BookService

    /** Line 29. */
    constructor (service: Orchestrator.BookService)
      ensures this.service == service
    {
      this.service := service;
    }

    /** Lines 32-60: a valid request reaches the service with an empty id, so
        the store generates one. */
    method AddBook(req: AddBookRequest, uuid: string, f: CacheAside.Faults) returns (r: Result<BookMessage, Status>)
      requires service.Valid()
      modifies service
      ensures service.Valid()
      ensures CheckAddBook(req).Some? ==> r == Err(CheckAddBook(req).value) && service.Snapshot() == old(service.Snapshot())
      ensures CheckAddBook(req).None? ==>
        var (sr, s) := CacheAside.AddBook(old(service.Snapshot()), Book("", req.title, req.author, req.publicationYear.GetOr(0), req.genre.GetOr("")), uuid, f);
        r == Reply(sr) && service.Snapshot() == s
    {
      var invalid := CheckAddBook(req);
      if invalid.Some? {
        return Err(invalid.value);
      }
      var book := service.AddBook(Book("", req.title, req.author, req.publicationYear.GetOr(0), req.genre.GetOr("")), uuid, f);
      r := Reply(book);
    }

    /** Lines 61-82. */
    method GetBook(bookId: string, f: CacheAside.Faults) returns (r: Result<BookMessage, Status>)
      requires service.Valid()
      modifies service
      ensures service.Valid()
      ensures bookId == "" ==> r == Err(BookIdRequired) && service.Snapshot() == old(service.Snapshot())
      ensures bookId != "" ==>
        var (sr, s) := CacheAside.GetBook(old(service.Snapshot()), bookId, f);
        r == Reply(sr) && service.Snapshot() == s
    {
      var invalid := CheckBookId(bookId);
      if invalid.Some? {
        return Err(invalid.value);
      }
      var book := service.GetBook(bookId, f);
      r := Reply(book);
    }

    /** Lines 84-110: only the id is checked; title and author go through as given. */
    method UpdateBook(req: UpdateBookRequest, f: CacheAside.Faults) returns (r: Result<BookMessage, Status>)
      requires service.Valid()
      modifies service
      ensures service.Valid()
      ensures req.bookId == "" ==> r == Err(BookIdRequired) && service.Snapshot() == old(service.Snapshot())
      ensures req.bookId != "" ==>
        var (sr, s) := CacheAside.UpdateBook(old(service.Snapshot()), Book(req.bookId, req.title, req.author, req.publicationYear.GetOr(0), req.genre.GetOr("")), f);
        r == Reply(sr) && service.Snapshot() == s
    {
      var invalid := CheckBookId(req.bookId);
      if invalid.Some? {
        return Err(invalid.value);
      }
      var book := service.UpdateBook(Book(req.bookId, req.title, req.author, req.publicationYear.GetOr(0), req.genre.GetOr("")), f);
      r := Reply(book);
    }

    /** Lines 112-126. */
    method DeleteBook(bookId: string, f: CacheAside.Faults) returns (r: Result<string, Status>)
      requires service.Valid()
      modifies service
      ensures service.Valid()
      ensures bookId == "" ==> r == Err(BookIdRequired) && service.Snapshot() == old(service.Snapshot())
      ensures bookId != "" ==>
        var (sr, s) := CacheAside.DeleteBook(old(service.Snapshot()), bookId, f);
        r == ReplyId(sr) && service.Snapshot() == s
    {
      var invalid := CheckBookId(bookId);
      if invalid.Some? {
        return Err(invalid.value);
      }
      var id := service.DeleteBook(bookId, f);
      r := ReplyId(id);
    }

    /** Lines 128-160: every book the request's filter keeps, by title. */
    method ListBooks(req: ListBooksRequest, fault: Option<string>) returns (r: Result<seq<BookMessage>, Status>)
      requires service.Valid()
      ensures fault.Some? ==> r == Err(ToStatus(CacheAside.ServiceError(CacheAside.ListBooksOp,
        Postgres.StoreError(Postgres.ListBooksOp, Postgres.DriverError(fault.value)))))
      ensures fault.None? ==>
        && r.Ok?
        && Postgres.IsSelection(service.table.books,
             Postgres.MatchingIds(service.table, Some(FilterFrom(req.author, req.publicationYear, req.genre))),
             FromMessages(r.value))
        && SortedByTitle(FromMessages(r.value))
        && forall i :: 0 <= i < |r.value| ==> r.value[i] == ToMessage(FromMessages(r.value)[i])
    {
      var filter := FilterFrom(req.author, req.publicationYear, req.genre);
      var books := service.ListBooks(Some(filter), fault);
      if books.Err? {
        return Err(ToStatus(books.error));
      }
      var messages := ToMessages(books.value);
      r := Ok(messages);
    }

    /** Lines 162-179. */
    method AddBookToUser(req: UserBookRequest, f: CacheAside.Faults) returns (r: Result<string, Status>)
      requires service.Valid()
      modifies service
      ensures service.Valid()
      ensures CheckUserBook(req).Some? ==> r == Err(CheckUserBook(req).value) && service.Snapshot() == old(service.Snapshot())
      ensures CheckUserBook(req).None? ==>
        var (sr, s) := CacheAside.AddBookToUser(old(service.Snapshot()), req.userId, req.bookId, f);
        r == ReplyId(sr) && service.Snapshot() == s
    {
      var invalid := CheckUserBook(req);
      if invalid.Some? {
        return Err(invalid.value);
      }
      var id := service.AddBookToUser(req.userId, req.bookId, f);
      r := ReplyId(id);
    }

    /** Lines 181-198. */
    method RemoveBookFromUser(req: UserBookRequest, f: CacheAside.Faults) returns (r: Result<string, Status>)
      requires service.Valid()
      modifies service
      ensures service.Valid()
      ensures CheckUserBook(req).Some? ==> r == Err(CheckUserBook(req).value) && service.Snapshot() == old(service.Snapshot())
      ensures CheckUserBook(req).None? ==>
        var (sr, s) := CacheAside.RemoveBookFromUser(old(service.Snapshot()), req.userId, req.bookId, f);
        r == ReplyId(sr) && service.Snapshot() == s
    {
      var invalid := CheckUserBook(req);
      if invalid.Some? {
        return Err(invalid.value);
      }
      var id := service.RemoveBookFromUser(req.userId, req.bookId, f);
      r := ReplyId(id);
    }

    /** Lines 199-235: the user's books the request's filter keeps. */
    method GetUserBooks(req: GetUserBooksRequest, fault: Option<string>) returns (r: Result<seq<BookMessage>, Status>)
      requires service.Valid()
      ensures req.userId == "" ==> r == Err(UserIdRequired)
      ensures req.userId != "" && fault.Some? ==> r == Err(ToStatus(CacheAside.ServiceError(CacheAside.GetUserBooksOp,
        Postgres.StoreError(Postgres.GetUserBooksOp, Postgres.DriverError(fault.value)))))
      ensures req.userId != "" && fault.None? ==>
        && r.Ok?
        && Postgres.IsSelection(service.table.books,
             Postgres.OwnedMatchingIds(service.table, req.userId, Some(FilterFrom(req.author, req.publicationYear, req.genre))),
             FromMessages(r.value))
        && forall i :: 0 <= i < |r.value| ==> r.value[i] == ToMessage(FromMessages(r.value)[i])
    {
      var invalid := CheckUserId(req.userId);
      if invalid.Some? {
        return Err(invalid.value);
      }
      var filter := FilterFrom(req.author, req.publicationYear, req.genre);
      var books := service.GetUserBooks(req.userId, Some(filter), fault);
      if books.Err? {
        return Err(ToStatus(books.error));
      }
      var messages := ToMessages(books.value);
      r := Ok(messages);
    }
  }
}

=== FILE: status.dfy ===
/** The gRPC status vocabulary shared by the access guard and the transport. */
module Grpc {

  /** The status codes this service ever returns. */
  datatype Code = InvalidArgument | Unauthenticated | PermissionDenied | Internal

  /** `status.Error(code, message)`. */
  datatype Status = Status(code: Code, message: string)
}

=== FILE: title_order.dfy ===
/** The order of `ORDER BY title ASC`, taken as code-point lexicographic order
    (PostgreSQL's "C" collation), and the facts a selection sort needs of it. */
module TitleOrder {
  import opened Domain

  /** `a` sorts no later than `b`: a proper prefix sorts first. */
  predicate LexLe(a: string, b: string) {
    a == [] || (b != [] && (a[0] < b[0] || (a[0] == b[0] && LexLe(a[1..], b[1..]))))
  }

  lemma {:induction false} LexLeTotal(a: string, b: string)
    ensures LexLe(a, b) || LexLe(b, a)
  {
    if a != [] && b != [] && a[0] == b[0] {
      LexLeTotal(a[1..], b[1..]);
    }
  }

  lemma {:induction false} LexLeTransitive(a: string, b: string, c: string)
    requires LexLe(a, b) && LexLe(b, c)
    ensures LexLe(a, c)
  {
    if a != [] && b != [] && c != [] && a[0] == b[0] && b[0] == c[0] {
      LexLeTransitive(a[1..], b[1..], c[1..]);
    }
  }

  lemma {:induction false} LexLeAntisymmetric(a: string, b: string)
    requires LexLe(a, b) && LexLe(b, a)
    ensures a == b
  {
    if a != [] && b != [] {
      LexLeAntisymmetric(a[1..], b[1..]);
      assert a == [a[0]] + a[1..] && b == [b[0]] + b[1..];
    }
  }

  /** Rows in ascending title order. */
  predicate SortedByTitle(rows: seq<Book>) {
    forall i, j :: 0 <= i < j < |rows| ==> LexLe(rows[i].title, rows[j].title)
  }

  /** `k` names a book of `ids` whose title sorts no later than any other there. */
  predicate IsFirstByTitle(books: map<string, Book>, ids: set<string>, k: string)
    requires ids <= books.Keys
  {
    k in ids && forall j :: j in ids ==> LexLe(books[k].title, books[j].title)
  }

  /** Every non-empty finite set of books has a first one by title. */
  lemma {:induction false} FirstByTitleExists(books: map<string, Book>, ids: set<string>)
    requires ids != {} && ids <= books.Keys
    ensures exists k :: IsFirstByTitle(books, ids, k)
    decreases |ids|
  {
    var x :| x in ids;
    if ids == {x} {
      LexLeTotal(books[x].title, books[x].title);
      assert IsFirstByTitle(books, ids, x);
    } else {
      var rest := ids - {x};
      FirstByTitleExists(books, rest);
      var m :| IsFirstByTitle(books, rest, m);
      if LexLe(books[m].title, books[x].title) {
        assert IsFirstByTitle(books, ids, m);
      } else {
        LexLeTotal(books[m].title, books[x].title);
        forall j | j in ids
          ensures LexLe(books[x].title, books[j].title)
        {
          if j == x {
            LexLeTotal(books[x].title, books[x].title);
          } else {
            LexLeTransitive(books[x].title, books[m].title, books[j].title);
          }
        }
        assert IsFirstByTitle(books, ids, x);
      }
    }
  }
}
